=== FILE: README.md ===
# FTAnalyzer main window: a Dafny model

This project models the bookkeeping logic of FTAnalyzer's main window
(`MainForm`). The window's controls, the settings store and the Windows
registry are represented as plain values. Each handler is a pure function
from the old state to the new one. The loops of `MainForm` are recursive
functions, except those of the recent-files list and the age prompt, which
are methods with loops. The modelled parts are:

- **Recent files** (`recent_files.dfy`). This is the five-slot list of recently opened GEDCOM
  files. It covers clearing the list, adding a file to the front (dropping its old entry and
  files that no longer exist), and rebuilding the Recent menu with consecutive numbers for the
  files that are shown.
- **Non-duplicates** (`non_duplicates.dfy`). This is the "ignore" check box of the possible
  duplicates grid. Flipping it adds the pair to the exclusion list, unless an equal pair is
  already there, or removes the first equal pair.
- **Duplicates tab** (`duplicates_tab.dfy`). This is the duplicates search as a state machine
  over the user-interface events.
  - The progress clamp and the maximum-score callback are modelled, including the track bar's
    own adjustment of its range and value in `SetRange`.
  - The guards that stop a second search while one runs are modelled as written.
  - The unguarded tab selection is shown to break the one-search-at-a-time invariant.
- **Older parents prompt** (`age_prompt.dfy`). The minimum-age dialog loop is modelled over a
  sequence of user answers.
- **Fact types** (`fact_types.dfy`). This covers:
  - the fact-type select and exclude lists, rebuilt from the facts and the stored flags;
  - select-all and exclude-all;
  - the list of checked types handed to the facts report;
  - the Show Facts button.
- **Data errors** (`data_errors.dfy`). This is the report of the errors of every checked error
  group.
- **Window disposal** (`form_disposal.dfy`). This covers which open report windows a new
  window replaces, and whether each is closed or disposed of.
- **Inconsistent census locations** (`census_locations.dfy`). This groups census facts by year
  and reference, and reports every group that names more than one location.
- **Version prefix** (`version_info.dfy`). The application version is cut at its first `-`
  before it is compared with the database version.

The following are parameters rather than implementations:
- file existence;
- the `Equals` methods of non-duplicate pairs, census dates, individuals and families;
- the census key and location of a fact.

`Option` (in `wrappers.dfy`) stands for a reference that may be null.

## Model

| member | source | states |
|---|---|---|
| RecentFiles.ClearRecentList | FTAnalyser/Forms/MainForm.cs:1976-1984 | The cleared list has exactly five slots, each an empty string and so never a shown file |
| RecentFiles.ClearedMenuDisabled | FTAnalyser/Forms/MainForm.cs:1970-1974 | After "clear recent files" no slot is visible, so the menu is rebuilt with nothing shown |
| RecentFiles.Survivors | FTAnalyser/Forms/MainForm.cs:2017-2023 | The old entries carried over are, in order, those that differ from the new file and still exist, all taken from the old list |
| RecentFiles.AddFileToRecentList | FTAnalyser/Forms/MainForm.cs:2010-2033 | The new list has five slots: the new file first, no other slot holding it, and every other non-null slot an existing file from the old list |
| RecentFiles.CarryOver | FTAnalyser/Forms/MainForm.cs:2016-2024 | The loop with its write index and its break once five slots are taken lays out the surviving old entries, at most four, in slots 1 to 4, with nulls after them |
| RecentFiles.AddFileToRecentListLoop | FTAnalyser/Forms/MainForm.cs:2012-2029 | The array steps fill slot 0 with the file, then the surviving old entries, then nulls, and give the same list as the functional definition |
| RecentFiles.SurvivorsAppend | FTAnalyser/Forms/MainForm.cs:2017-2023 | Filtering two consecutive parts of the old list is filtering each and joining the results |
| RecentFiles.SurvivorsSplit | FTAnalyser/Forms/MainForm.cs:2017-2023 | The survivors of the whole old list are those before index i followed by those from i on, so a loop leaving early has carried a prefix of them |
| RecentFiles.SurvivorsStep | FTAnalyser/Forms/MainForm.cs:2017-2023 | One loop step extends the survivors by the i-th entry exactly when it differs from the new file and exists |
| RecentFiles.SlotwiseIsUpdate | FTAnalyser/Forms/MainForm.cs:2012-2029 | Slots that agree one by one with the update rule form the updated list |
| RecentFiles.SurvivorsOfKept | FTAnalyser/Forms/MainForm.cs:2017-2023 | Filtering a list made of survivors and nulls again yields the same survivors |
| RecentFiles.NullsSurviveNone | FTAnalyser/Forms/MainForm.cs:2019 | Null slots never survive the filter |
| RecentFiles.Kept | FTAnalyser/Forms/MainForm.cs:2016-2022 | At most four carried entries fit, taken from the front of the survivors, and all of them when fewer than four survive |
| RecentFiles.LayoutSurvivors | FTAnalyser/Forms/MainForm.cs:2017-2027 | Filtering an updated list for its own file gives back exactly the entries that were kept |
| RecentFiles.AddFileIdempotent | FTAnalyser/Forms/MainForm.cs:2010-2033 | Opening the same file twice in a row leaves the list as it was after the first time |
| RecentFiles.SurvivorsMultiplicity | FTAnalyser/Forms/MainForm.cs:2017-2023 | Each name survives as many times as the old list holds it, unless it is the new file or no longer exists |
| RecentFiles.RepeatsKept | FTAnalyser/Forms/MainForm.cs:2010-2033 | When all survivors fit, every name occurs in the new list as often as it survives, repeats included, and the new file exactly once |
| RecentFiles.AnyVisibleIffCount | FTAnalyser/Forms/MainForm.cs:1990-2007 | The visible count is positive exactly when some slot is visible |
| RecentFiles.NumberEntries | FTAnalyser/Forms/MainForm.cs:1990-2004 | The numbering loop shows entry i exactly when slot i is visible, numbers it one more than the visible slots before it, and reports whether anything was shown |
| RecentFiles.SlotsToShowAsWritten | FTAnalyser/Forms/MainForm.cs:1976-1989 | As written, a list without five slots is reset to five empty slots and a five-slot list is kept; a null list yields none, because the reset calls `Clear()` on it and fails |
| RecentFiles.SlotsToShow | FTAnalyser/Forms/MainForm.cs:1986-1989 | Corrected: the slots shown are always five. A five-slot list is kept, and a null list or one of another length is reset |
| RecentFiles.SlotsAgreeUnlessNull | FTAnalyser/Forms/MainForm.cs:1976-1989 | The as-written and corrected resets agree on every non-null list |
| RecentFiles.NullListThrowsAsWritten | FTAnalyser/Forms/MainForm.cs:1976-1989 | On a null list the as-written reset fails, while the corrected one yields the cleared list |
| RecentFiles.BuildRecentListAsWritten | FTAnalyser/Forms/MainForm.cs:1986-2008 | As written, the rebuild fails exactly when the list is null. Otherwise it numbers the reset slots like the corrected rebuild |
| RecentFiles.BuildRecentList | FTAnalyser/Forms/MainForm.cs:1986-2008 | Corrected: a null list, or one without five slots, is reset first. Entry i is shown exactly when slot i is a non-empty existing file, and shows that name numbered one more than the shown entries before it. The menu is enabled exactly when something is shown |
| RecentFiles.NumberingConsecutive | FTAnalyser/Forms/MainForm.cs:1992-2004 | The shown entries are numbered 1, 2, ..., k with no gaps, k being the number of visible slots |
| RecentFiles.NewFileShownFirst | FTAnalyser/Forms/MainForm.cs:2027-2032 | After an existing file is opened, the rebuilt menu shows it first as number 1 |
| NonDuplicates.FirstMatch | FTAnalyser/Forms/MainForm.cs:2485 | The index `List.Remove` uses: the first stored element equal to the probe, and none equal before it |
| NonDuplicates.Remove | FTAnalyser/Forms/MainForm.cs:2485 | Removing takes out exactly the first equal element and keeps the rest in order, or leaves the list unchanged when none is equal |
| NonDuplicates.ToggleIgnore | FTAnalyser/Forms/MainForm.cs:2472-2488 | Outside the check-box column, on the header row or during a search, nothing changes. Otherwise only the clicked row's flag flips; a newly ignored pair is added when absent and a newly un-ignored pair has its first equal entry removed |
| NonDuplicates.RemoveKeepsDuplicateFree | FTAnalyser/Forms/MainForm.cs:2485 | Removal keeps an exclusion list free of equal pairs |
| NonDuplicates.ToggleKeepsDuplicateFree | FTAnalyser/Forms/MainForm.cs:2479-2485 | Add-if-absent and remove keep the exclusion list free of equal pairs |
| NonDuplicates.ToggleTwiceRestores | FTAnalyser/Forms/MainForm.cs:2472-2488 | Ignoring and then un-ignoring a pair not yet excluded restores the grid and the exclusion list |
| DuplicatesTab.ClampProgress | FTAnalyser/Forms/MainForm.cs:2409-2416 | The progress value is within [0, maximum]. An in-range report passes unchanged, and one below or above is pinned to the nearer end |
| DuplicatesTab.ClampIdempotent | FTAnalyser/Forms/MainForm.cs:2409-2416 | Clamping a clamped value changes nothing |
| DuplicatesTab.ClampMonotonic | FTAnalyser/Forms/MainForm.cs:2409-2416 | Clamping keeps the order of reported values |
| DuplicatesTab.TickFrequency | FTAnalyser/Forms/MainForm.cs:2419 | C# `value / 20` truncates toward zero: the result has the value's sign and a magnitude within 20 below it |
| DuplicatesTab.SetRange | FTAnalyser/Forms/MainForm.cs:2420 | The track bar's `SetRange`: an unchanged range changes nothing. Otherwise a maximum below the minimum is raised to it, and the value is kept if it lies in the new range, else moved to the nearer end |
| DuplicatesTab.SetMaxScore | FTAnalyser/Forms/MainForm.cs:2417-2421 | On a track bar whose minimum is at most its maximum, the minimum becomes 1 and the maximum the score, or 1 when the score is below 1. A value inside the range stays inside and keeps its place when it fits. The tick is score/20, with at least one tick whenever the score is at least 20 |
| DuplicatesTab.StartSearch | FTAnalyser/Forms/MainForm.cs:2405-2424 | A search start shows the progress controls, creates a cancellation source and reads the slider, leaving the grid and exclusions alone |
| DuplicatesTab.OnHideIgnoredChanged | FTAnalyser/Forms/MainForm.cs:2490-2497 | While the progress bar is visible nothing happens. Otherwise the setting is saved and exactly one search starts |
| DuplicatesTab.OnTabSelected | FTAnalyser/Forms/MainForm.cs:1398-1405 | Selecting the tab sets the check box from the setting and always starts a search, plus a second one when that changed an idle check box |
| DuplicatesTab.FinishSearch | FTAnalyser/Forms/MainForm.cs:2425-2435 | A finished search hides the controls and drops the source. The grid is replaced only by non-null data |
| DuplicatesTab.Step | FTAnalyser/Forms/MainForm.cs:2405-2497 | Scrolling or clicking the check box starts a search exactly when none is visible. Cancel only counts a request while a source exists. Grid clicks do nothing during a search. Progress stays in range. A search that throws only ends, leaving the controls and the source in place |
| DuplicatesTab.Initial | FTAnalyser/Forms/MainForm.cs:2403 | The tab starts with no search running and no cancellation source. Its check box holds whatever the window's layout gives it, which need not match the saved setting |
| DuplicatesTab.FirstVisitSearches | FTAnalyser/Forms/MainForm.cs:1403-1405 | The first selection of the tab syncs the check box to the setting. It starts one search when they already agree, and two at once when they differ, because the box's change handler searches too |
| DuplicatesTab.StepKeepsSerial | FTAnalyser/Forms/MainForm.cs:2456-2497 | Every guarded event (no fault, and a tab selection only while idle with the box matching the setting) keeps at most one search outstanding, with the progress controls and source present exactly while it runs |
| DuplicatesTab.TraceKeepsSerial | FTAnalyser/Forms/MainForm.cs:2456-2497 | Any run of guarded events keeps that invariant throughout |
| DuplicatesTab.ClickDuringSearchThenReselect | FTAnalyser/Forms/MainForm.cs:2490-2497 | A check-box click during a search is not saved. After the search ends the box and the setting differ, so selecting the tab again starts two searches |
| DuplicatesTab.FaultLeavesControlsShown | FTAnalyser/Forms/MainForm.cs:2424-2434 | When the search throws, the rest of the handler is skipped: the controls and the source stay. The slider and the check box then start nothing, and only a new tab selection starts a search |
| DuplicatesTab.ReselectBreaksSerial | FTAnalyser/Forms/MainForm.cs:1401-1405 | Re-selecting the tab during a search starts a second search. After one finishes the controls are hidden while the other still runs, and the slider can start a third |
| AgePrompt.AskMinimumAge | FTAnalyser/Forms/MainForm.cs:822-854 | Answers are consumed up to the first cancel or in-range age. The report runs exactly when that last answer is OK, for the current age, which lies in [13, 90]. Each answer shows the invalid-age and out-of-range notices by the source's rules |
| AgePrompt.UnparsedAgeIsZero | FTAnalyser/Forms/MainForm.cs:828-835 | An age never parsed stays at its initial 0 |
| AgePrompt.UnparsedOnlyCancelStops | FTAnalyser/Forms/MainForm.cs:841-843 | With no parseable answer only a cancel ends the loop, since 0 is out of range |
| FactTypes.LessIrreflexive | FTAnalyser/Forms/MainForm.cs:3126 | The sort order is irreflexive |
| FactTypes.LessTransitive | FTAnalyser/Forms/MainForm.cs:3126 | The sort order is transitive |
| FactTypes.LessTotal | FTAnalyser/Forms/MainForm.cs:3126 | Any two distinct names are ordered one way or the other |
| FactTypes.LessAsymmetric | FTAnalyser/Forms/MainForm.cs:3126 | The sort order is asymmetric |
| FactTypes.Insert | FTAnalyser/Forms/MainForm.cs:3125-3126 | Inserting into a strictly sorted list keeps it strictly sorted and adds exactly the new name |
| FactTypes.SortedDistinct | FTAnalyser/Forms/MainForm.cs:3125-3126 | The distinct fact types, sorted: strictly ascending, with exactly the members of the input |
| FactTypes.SortedUnique | FTAnalyser/Forms/MainForm.cs:3125-3126 | Two strictly sorted lists with the same members are equal |
| FactTypes.CheckItems | FTAnalyser/Forms/MainForm.cs:3133-3141 | One item per type, checked exactly when its registry value, read with the default, is "True" |
| FactTypes.BuildLists | FTAnalyser/Forms/MainForm.cs:3123-3144 | Both lists hold every distinct fact type once, ascending and in the same order. Select flags default to checked, exclude flags to unchecked |
| FactTypes.SetFactTypeList | FTAnalyser/Forms/MainForm.cs:3123-3144 | As written: both lists hold the distinct fact types in ascending order. A select item is checked when "Fact: " + name reads "True" (default "True"), an exclude item when "Exlude Fact: " + name does (default "False") |
| FactTypes.SetFactTypeListFixed | FTAnalyser/Forms/MainForm.cs:3123-3144 | Corrected: the same lists, but exclude items are read under "Exclude Fact: " + name, the key the exclusion handlers write |
| FactTypes.ListsIgnoreFactOrder | FTAnalyser/Forms/MainForm.cs:3125-3126 | Under either exclusion prefix, the rebuilt lists depend only on which fact types occur, not on their order or repetition |
| FactTypes.StoreFlagsWrites | FTAnalyser/Forms/MainForm.cs:2260-2265 | After the loop every item's key holds the stored value, even when a name repeats |
| FactTypes.StoreFlagsKeeps | FTAnalyser/Forms/MainForm.cs:2260-2265 | The loop leaves the keys of all other names untouched |
| FactTypes.StoreFlags | FTAnalyser/Forms/MainForm.cs:2260-2265 | The loop's registry writes add exactly the keys of the listed names and no others |
| FactTypes.SetFactTypes | FTAnalyser/Forms/MainForm.cs:2258-2267 | Every item takes the chosen state and its flag is stored under the list's prefix. Registry keys of other types are untouched, and no key is added but those of the items |
| FactTypes.ToggleItem | FTAnalyser/Forms/MainForm.cs:2274-2277 | A click flips the item's check mark and leaves the other items alone. The new state is stored under the list's prefix and the item's name, and no other key changes |
| FactTypes.ToggleItemTwice | FTAnalyser/Forms/MainForm.cs:2274-2277 | Two clicks on one item restore the list, and its stored flag again matches its check mark |
| FactTypes.SelectClick | FTAnalyser/Forms/MainForm.cs:2269-2280 | As written, the select list changes exactly when the click hits an item after the first, and then that item is toggled under "Fact: " |
| FactTypes.SelectClickFixed | FTAnalyser/Forms/MainForm.cs:2269-2280 | Corrected: the select list changes exactly when the click hits an item, the first included |
| FactTypes.ExcludeClick | FTAnalyser/Forms/MainForm.cs:2305-2313 | As written, a click off the items fails; a click on an item toggles it under "Exclude Fact: " |
| FactTypes.ExcludeClickFixed | FTAnalyser/Forms/MainForm.cs:2305-2313 | Corrected: a click off the items changes nothing; a click on an item toggles it |
| FactTypes.FirstItemClickIgnored | FTAnalyser/Forms/MainForm.cs:2272 | As written, a click on the first select item changes nothing; corrected, it flips that item |
| FactTypes.MissedExcludeClickThrows | FTAnalyser/Forms/MainForm.cs:2307-2308 | As written, a click below the exclusion items fails; corrected, it leaves list and registry as they were |
| FactTypes.CheckedNames | FTAnalyser/Forms/MainForm.cs:2239-2251 | A type is listed exactly when it is checked and is not one of the created parent/children types, unless those are included |
| FactTypes.CheckedNamesOne | FTAnalyser/Forms/MainForm.cs:2244-2249 | One item contributes its name exactly when it is checked and allowed |
| FactTypes.CheckedNamesAppend | FTAnalyser/Forms/MainForm.cs:2242-2250 | The names come out in list order: those of a first run of items, then those of the next |
| FactTypes.CheckedNamesCount | FTAnalyser/Forms/MainForm.cs:2242-2250 | With the created types included, the list has one name per checked item; without them, at most that many |
| FactTypes.BuildFactTypeList | FTAnalyser/Forms/MainForm.cs:2234-2252 | The hidden exclusion list yields nothing; any other list yields its checked types as above |
| FactTypes.CheckedCount | FTAnalyser/Forms/MainForm.cs:2284-2288 | The checked count is positive exactly when some item is checked |
| FactTypes.SetShowFactsButton | FTAnalyser/Forms/MainForm.cs:2282-2289 | The button is enabled exactly when something is selected, or exclusions are visible and one is checked. Its caption follows the source's two cases |
| FactTypes.ButtonEnabledIffListsNonEmpty | FTAnalyser/Forms/MainForm.cs:2234-2289 | The button is enabled exactly when the facts report would receive a non-empty select or exclude list |
| FactTypes.ExcludeAllPersists | FTAnalyser/Forms/MainForm.cs:2291 | With the read prefix matching the write prefix, "exclude all" followed by a rebuild shows every type excluded |
| FactTypes.ExcludeAllLostAsWritten | FTAnalyser/Forms/MainForm.cs:3140 | As written, "exclude all" on the type Birth stores its flag under a key the rebuild never reads, so Birth comes back unchecked |
| DataErrors.DataErrors | FTAnalyser/Forms/MainForm.cs:780-789 | The report has as many rows as the checked groups have errors together |
| DataErrors.DataErrorsContents | FTAnalyser/Forms/MainForm.cs:780-789 | The report holds exactly the errors of the checked groups, no more and no fewer, with their total count |
| DataErrors.DataErrorsAppend | FTAnalyser/Forms/MainForm.cs:783-787 | The report of a split list is the two parts' reports joined, so groups keep list order |
| DataErrors.NoneCheckedIsEmpty | FTAnalyser/Forms/MainForm.cs:783-787 | With no group checked the report is empty |
| DataErrors.AllCheckedKeepsGroups | FTAnalyser/Forms/MainForm.cs:783-787 | With every group checked, each group's errors appear whole and in place |
| FormDisposal.Copies | FTAnalyser/Forms/MainForm.cs:1876-1894 | The rules for listing an open window. Never the new window itself or one of another type. A census window when date and Lost Cousins flag match. A facts window once per non-null matching individual or family, so up to twice. Any other window once |
| FormDisposal.ToDispose | FTAnalyser/Forms/MainForm.cs:1873-1895 | Only open windows of the new window's type, other than itself, are listed |
| FormDisposal.DisposeDuplicateForms | FTAnalyser/Forms/MainForm.cs:1869-1906 | One action per listed window. None is the new window itself, and each concerns an open window of the new window's type. It is a close when that window is visible and this is its first action, or when a closed window still reads as visible; otherwise a dispose. When a closed window reads as hidden, no window is closed twice |
| FormDisposal.Disposals | FTAnalyser/Forms/MainForm.cs:1896-1903 | Each listed window, in order, is closed if `Visible` reads true when the loop reaches it, and disposed of otherwise. A first listing reads the visibility before the loop; a later listing reads it after the window's own close or dispose |
| FormDisposal.DoubleListingClosedOnce | FTAnalyser/Forms/MainForm.cs:1886-1903 | A visible facts window matching on both individual and family is listed twice. It is closed, then disposed of, unless a closed window still reads as visible |
| FormDisposal.ListedCount | FTAnalyser/Forms/MainForm.cs:1873-1895 | Each open window is listed exactly as many times as its own rule gives, whatever the other windows are |
| FormDisposal.CopiesCount | FTAnalyser/Forms/MainForm.cs:1876-1894 | A window's copies count only that window |
| FormDisposal.NotListedElsewhere | FTAnalyser/Forms/MainForm.cs:1874-1876 | A window that is not open is never listed |
| FormDisposal.NewTypeClosesNothing | FTAnalyser/Forms/MainForm.cs:1869-1906 | Opening a window of a type no open window has closes nothing |
| CensusLocations.DistinctKeys | FTAnalyser/Forms/MainForm.cs:2676 | The distinct census keys, each once, covering every fact's key and no other |
| CensusLocations.WithKey | FTAnalyser/Forms/MainForm.cs:2682 | A group holds exactly the facts with the given key |
| CensusLocations.InconsistentLocations | FTAnalyser/Forms/MainForm.cs:2666-2690 | Every reported fact is one of the census facts, and groups are reported whole: with a fact, every fact of the same year and reference |
| CensusLocations.Collect | FTAnalyser/Forms/MainForm.cs:2680-2688 | A fact is collected exactly when its group, for one of the keys, is inconsistent |
| CensusLocations.InconsistentIffTwoLocations | FTAnalyser/Forms/MainForm.cs:2683-2684 | More than one distinct location means exactly that two facts of the group differ in location |
| CensusLocations.ReportedIffConflict | FTAnalyser/Forms/MainForm.cs:2671-2690 | A fact is reported exactly when it was collected and some fact with the same key names a different location |
| VersionInfo.IndexOf | FTAnalyser/Forms/MainForm.cs:60 | The index of the first `-`, or -1 when there is none |
| VersionInfo.VersionCore | FTAnalyser/Forms/MainForm.cs:60-61 | The result is a prefix of the version. It is the whole version, or stops just before a `-` and holds none. It is cut whenever a `-` occurs after the first character |
| VersionInfo.VersionCoreIdempotent | FTAnalyser/Forms/MainForm.cs:60-61 | Cutting the cut version changes nothing |
| VersionInfo.VersionCoreSplits | FTAnalyser/Forms/MainForm.cs:60-61 | The core and the cut-off part, which starts at a `-`, make up the whole version |

## Left out

- Rendering and layout of WinForms controls are not modelled. Menu items are modelled as a
  number and a name, without the "n. name" text, tag or separator.
- Persistence is not modelled: `Settings.Save` and the registry as a store. The registry is a
  string map, and a C# `bool` value is stored as "True" or "False".
- `SerializeNonDuplicates` is not modelled; the exclusion list is kept in memory.
- `GenerateDuplicatesList` is not modelled: its scoring, its matching and the duplicates it
  returns. A finished search carries its data, or null, as an event. A search that throws is
  the `SearchFaulted` event: the awaited task rethrows, so nothing after the await runs.
- `ResetDuplicatesTable`'s grid sort and the column-layout save and load are not modelled; they
  are display only.
- Asynchrony is modelled as a sequence of handler runs on the user-interface thread. The
  cancellation token's effect on the running search is not modelled; cancel requests are
  counted.
- FactTypes.SortedDistinct: `List<string>.Sort` compares with the current culture. The model
  uses ordinal (code-point) order, which can differ from it on any mix of case, accents or
  punctuation. For example, the model puts every upper-case initial before every lower-case
  one ("Zeta" before "alpha"), and the culture's word sort ignores hyphens and apostrophes
  ("co-op" against "cook"). Only the sorted order differs; which names appear does not.
- The input box's own behaviour is not modelled. Each answer is given as a dialog result and
  the outcome of `int.Parse` (a number or a parse failure). Messages are recorded as notices,
  not shown.
- FormDisposal.DisposeDuplicateForms: what `Visible` reads on a window after its own `Close` is
  a parameter, because it is the windowing library's behaviour.
- The exceptions swallowed by the `try`/`catch` in `DisposeDuplicateForms` are not modelled.
  Closing and disposing are recorded as actions.
- The census filter (`CreateIndividualCensusFilter`), census reference formatting and the
  progress bar of the locations report are not modelled. The key (year and reference) and the
  location are parameters, and the facts passed in are those that passed the filter.
- FactTypes.SelectClick: `IndexFromPoint` is not modelled. The index under the pointer is a
  parameter, either -1 (no item) or the index of an item. The button refresh after a click is
  FactTypes.SetShowFactsButton, applied to the new list.
- FactTypes.ExcludeClick: the index under the pointer is a parameter in the same way.
- FactTypes.SetFactTypes: registry value names are compared exactly, while the Windows
  registry ignores case in them. The model keeps "Fact: Birth" and "Fact: birth" apart; the
  registry would treat them as one value.
- FactTypes.ToggleItem: registry value names are compared exactly, as for SetFactTypes.
- FactTypes.BuildLists: for the same reason, a flag stored under a name that differs only in
  case from the fact type is not found by the model, though the registry would find it.
- FactTypes.BuildLists: both lists inherit the ordinal order of FactTypes.SortedDistinct, so
  their item order can differ from the source's on any mix of case, accents or punctuation.
- GEDCOM loading, CSV, database and backup I/O, reports, maps, exports and the other tabs of
  the main window are not modelled.
- `PublishVersion` and the database version check are not modelled; only the string cut is.

## Findings

| source | as written | input that shows it | evidently intended | confidence | as-written member | corrected member |
|---|---|---|---|---|---|---|
| FTAnalyser/Forms/MainForm.cs:3140 | Exclusion flags are read under the key prefix "Exlude Fact: ". They are written under "Exclude Fact: " (lines 2291, 2293 and 2311). | Exclude all with the single fact type Birth, then rebuild the lists. "Exclude Fact: Birth" is stored as "True", but "Exlude Fact: Birth" is read, so Birth is shown unchecked. | Read the flags under the prefix they are written with, so exclusions persist across rebuilds. | not executed; follows from the two string literals | FactTypes.ExcludeAllLostAsWritten | FactTypes.ExcludeAllPersists |
| FTAnalyser/Forms/MainForm.cs:2272 | The select-list click handler acts only when `index > 0`. | A click on the first item of the select list (index 0): it is neither toggled nor stored, while the exclusion list's handler toggles its own first item. | Act on every item the click hits, `index >= 0`. | not executed; assumes the list's own check-on-click is off, which the designer file (not part of this model) decides | FactTypes.FirstItemClickIgnored | FactTypes.SelectClickFixed |
| FTAnalyser/Forms/MainForm.cs:2307-2308 | The exclusion-list click handler uses the index with no guard. | A click below the last item: `IndexFromPoint` gives -1 and `Items[-1]` throws. | Ignore a click that hits no item, as the select-list handler does. | not executed; follows from the missing guard | FactTypes.MissedExcludeClickThrows | FactTypes.ExcludeClickFixed |
| FTAnalyser/Forms/MainForm.cs:1988 | A null recent-files list is handed to `ClearRecentList`, whose `Clear()` (line 1978) is called on it. The constructor calls `BuildRecentList` (line 68). | A settings store whose recent-files collection is null: the rebuild throws instead of resetting. | Create the list and fill it with five empty slots. | not executed; matters only if the setting can be null, which the settings definition (not part of this model) decides | RecentFiles.NullListThrowsAsWritten | RecentFiles.BuildRecentList |

=== FILE: age_prompt.dfy ===
/**
 The minimum-age prompt of the "older parents" report.

 The dialog is asked repeatedly. Each answer is a dialog result and the
 outcome of parsing the typed text as an integer; a failed parse keeps the
 age from before, which starts at 0. The prompt stops when the user cancels
 or the age lies in [13, 90], and the report runs only for an OK answer.
 */
module AgePrompt {
  import opened Wrappers

  /** Lowest and highest accepted ages. */
  const MinAge: int := 13
  const MaxAge: int := 90

  /** The input box's result; `Other` is any result that is neither OK nor Cancel. */
  datatype DialogResult = OK | Cancel | Other

  /** One answer: the dialog result and the parsed text (`None` when parsing fails). */
  datatype Answer = Answer(result: DialogResult, parsed: Option<int>)

  /** The two message boxes the prompt can show after an answer. */
  datatype Notice = InvalidAge | OutOfRange

  /** How the prompt ended: the report run for an age, no report, or still waiting for answers. */
  datatype Outcome = Report(age: int) | NoReport | Waiting

  /** The prompt's course: answers consumed, the outcome, and the notices after each answer. */
  datatype PromptRun = PromptRun(consumed: nat, outcome: Outcome, notices: seq<seq<Notice>>)

  predicate InRange(age: int) {
    MinAge <= age <= MaxAge
  }

  /** The age after the given answers: the last successful parse, or 0. */
  function AgeAfter(answers: seq<Answer>): int {
    if answers == [] then 0
    else
      var last := answers[|answers| - 1];
      if last.parsed.Some? then last.parsed.value else AgeAfter(answers[..|answers| - 1])
  }

  /** True when answer `k` ends the prompt: a cancel, or the age now in range. */
  predicate StopsAt(answers: seq<Answer>, k: nat)
    requires k < |answers|
  {
    answers[k].result == Cancel || InRange(AgeAfter(answers[..k + 1]))
  }

  /** The notices after answer `k`: a failed parse (unless cancelled), then an age out of range. */
  function NoticesAt(answers: seq<Answer>, k: nat): seq<Notice>
    requires k < |answers|
  {
    (if answers[k].parsed.None? && answers[k].result != Cancel then [InvalidAge] else [])
    + (if InRange(AgeAfter(answers[..k + 1])) then [] else [OutOfRange])
  }

  /**
   The prompt loop. It consumes answers up to and including the first that
   stops it; the report runs exactly when that answer is OK, for the age
   then held, which lies in [13, 90].
   */
  method AskMinimumAge(answers: seq<Answer>) returns (run: PromptRun)
    ensures run.consumed <= |answers| && |run.notices| == run.consumed
    ensures forall k :: 0 <= k < run.consumed - 1 ==> !StopsAt(answers, k)
    ensures run.outcome.Waiting? <==> run.consumed == |answers| && forall k :: 0 <= k < |answers| ==> !StopsAt(answers, k)
    ensures !run.outcome.Waiting? ==> run.consumed > 0 && StopsAt(answers, run.consumed - 1)
    ensures run.outcome.Report? <==> run.consumed > 0 && answers[run.consumed - 1].result == OK && !run.outcome.Waiting?
    ensures run.outcome.Report? ==> InRange(run.outcome.age) && run.outcome.age == AgeAfter(answers[..run.consumed])
    ensures forall k :: 0 <= k < run.consumed ==> run.notices[k] == NoticesAt(answers, k)
  {
    var age := 0;
    var result := Cancel;
    var i := 0;
    var notices: seq<seq<Notice>> := [];
    var stopped := false;
    while i < |answers| && !stopped
      invariant 0 <= i <= |answers| && |notices| == i
      invariant age == AgeAfter(answers[..i])
      invariant forall k :: 0 <= k < i ==> notices[k] == NoticesAt(answers, k)
      invariant forall k :: 0 <= k < i - 1 ==> !StopsAt(answers, k)
      invariant !stopped && i > 0 ==> !StopsAt(answers, i - 1)
      invariant stopped ==> i > 0 && StopsAt(answers, i - 1) && result == answers[i - 1].result
    {
      assert answers[..i + 1][..i] == answers[..i];
      var answer := answers[i];
      var shown: seq<Notice> := [];
      result := answer.result;
      if answer.parsed.Some? {
        age := answer.parsed.value;
      } else if result != Cancel {
        shown := shown + [InvalidAge];
      }
      if age < MinAge || age > MaxAge {
        shown := shown + [OutOfRange];
      }
      notices := notices + [shown];
      stopped := !(result != Cancel && (age < MinAge || age > MaxAge));
      i := i + 1;
    }
    if !stopped {
      assert i == |answers|;
      run := PromptRun(i, Waiting, notices);
    } else if result == OK {
      run := PromptRun(i, Report(age), notices);
    } else {
      run := PromptRun(i, NoReport, notices);
    }
  }

  /** Answers that never parse leave the age at 0. */
  lemma {:induction false} UnparsedAgeIsZero(answers: seq<Answer>)
    requires forall k :: 0 <= k < |answers| ==> answers[k].parsed.None?
    ensures AgeAfter(answers) == 0
  {
    if answers != [] {
      UnparsedAgeIsZero(answers[..|answers| - 1]);
    }
  }

  /** Without a parseable age only a cancel ends the prompt, so the report never runs. */
  lemma UnparsedOnlyCancelStops(answers: seq<Answer>, k: nat)
    requires k < |answers|
    requires forall j :: 0 <= j < |answers| ==> answers[j].parsed.None?
    ensures StopsAt(answers, k) <==> answers[k].result == Cancel
  {
    UnparsedAgeIsZero(answers[..k + 1]);
  }
}

=== FILE: census_locations.dfy ===
/**
 The "inconsistent census locations" report: census facts are grouped by a
 key made of the census year and reference, and every group whose facts
 name more than one distinct location is reported whole.

 The key and the location are parameters; locations are compared with
 their own equality.
 */
module CensusLocations {

  /** The distinct keys, in the order they first occur. */
  function DistinctKeys<C, K(==)>(facts: seq<C>, key: C -> K): (r: seq<K>)
    ensures forall i, j :: 0 <= i < j < |r| ==> r[i] != r[j]
    ensures forall j :: 0 <= j < |facts| ==> key(facts[j]) in r
    ensures forall i :: 0 <= i < |r| ==> exists j :: 0 <= j < |facts| && key(facts[j]) == r[i]
  {
    if facts == [] then []
    else
      var n := |facts| - 1;
      var prev := DistinctKeys(facts[..n], key);
      assert forall j :: 0 <= j < n ==> facts[..n][j] == facts[j];
      if key(facts[n]) in prev then prev else prev + [key(facts[n])]
  }

  /** The facts with the given key, in their original order. */
  function WithKey<C(!new), K(==)>(facts: seq<C>, key: C -> K, k: K): (r: seq<C>)
    ensures |r| <= |facts|
    ensures forall x :: x in r <==> x in facts && key(x) == k
  {
    if facts == [] then []
    else
      var rest := WithKey(facts[1..], key, k);
      assert forall x :: x in facts <==> x == facts[0] || x in facts[1..] by {
        assert facts == [facts[0]] + facts[1..];
      }
      if key(facts[0]) == k then [facts[0]] + rest else rest
  }

  /** The distinct locations of a group. */
  function Locations<C, L(==)>(group: seq<C>, loc: C -> L): set<L> {
    set i | 0 <= i < |group| :: loc(group[i])
  }

  /** True when the group names more than one distinct location. */
  predicate Inconsistent<C, L(==)>(group: seq<C>, loc: C -> L) {
    |Locations(group, loc)| > 1
  }

  /** The groups for `keys`, each taken whole when inconsistent, one after another. */
  function Collect<C(==,!new), K(==), L(==)>(keys: seq<K>, facts: seq<C>, key: C -> K, loc: C -> L): (r: seq<C>)
    ensures forall x :: x in r <==>
      exists i :: 0 <= i < |keys| && x in WithKey(facts, key, keys[i]) && Inconsistent(WithKey(facts, key, keys[i]), loc)
  {
    if keys == [] then []
    else
      var group := WithKey(facts, key, keys[0]);
      var rest := Collect(keys[1..], facts, key, loc);
      assert forall i :: 0 <= i < |keys[1..]| ==> keys[1..][i] == keys[i + 1];
      assert forall i :: 1 <= i < |keys| ==> keys[i] == keys[1..][i - 1];
      (if Inconsistent(group, loc) then group else []) + rest
  }

  /** `BtnInconsistentLocations_Click`'s result list. */
  function InconsistentLocations<C(==,!new), K(==), L(==)>(facts: seq<C>, key: C -> K, loc: C -> L): (r: seq<C>)
    ensures forall x :: x in r ==> x in facts
    ensures forall x, y :: x in r && y in facts && key(y) == key(x) ==> y in r
  {
    var keys := DistinctKeys(facts, key);
    var r := Collect(keys, facts, key, loc);
    assert forall x, y :: x in r && y in facts && key(y) == key(x) ==> y in r by {
      forall x, y | x in r && y in facts && key(y) == key(x)
        ensures y in r
      {
        var i :| 0 <= i < |keys| && x in WithKey(facts, key, keys[i]) && Inconsistent(WithKey(facts, key, keys[i]), loc);
        assert y in WithKey(facts, key, keys[i]);
      }
    }
    r
  }

  /** A group is inconsistent exactly when two of its facts differ in location. */
  lemma InconsistentIffTwoLocations<C, L>(group: seq<C>, loc: C -> L)
    ensures Inconsistent(group, loc) <==>
      exists a, b :: 0 <= a < |group| && 0 <= b < |group| && loc(group[a]) != loc(group[b])
  {
    var s := Locations(group, loc);
    if |s| > 1 {
      var l1 :| l1 in s;
      assert |s - {l1}| == |s| - 1;
      var l2 :| l2 in s - {l1};
      var a :| 0 <= a < |group| && loc(group[a]) == l1;
      var b :| 0 <= b < |group| && loc(group[b]) == l2;
      assert loc(group[a]) != loc(group[b]);
    }
    if exists a, b :: 0 <= a < |group| && 0 <= b < |group| && loc(group[a]) != loc(group[b]) {
      var a, b :| 0 <= a < |group| && 0 <= b < |group| && loc(group[a]) != loc(group[b]);
      assert {loc(group[a]), loc(group[b])} <= s;
      assert |{loc(group[a]), loc(group[b])}| == 2;
      SubsetCard({loc(group[a]), loc(group[b])}, s);
    }
  }

  /** A subset is no larger than its superset. */
  lemma {:induction false} SubsetCard<T>(a: set<T>, b: set<T>)
    requires a <= b
    ensures |a| <= |b|
    decreases |a|
  {
    if a != {} {
      var x :| x in a;
      SubsetCard(a - {x}, b - {x});
    }
  }

  /**
   A fact is reported exactly when some fact with the same key names a
   different location.
   */
  lemma ReportedIffConflict<C(!new), K, L>(facts: seq<C>, key: C -> K, loc: C -> L, x: C)
    ensures x in InconsistentLocations(facts, key, loc) <==>
      x in facts && exists y :: y in facts && key(y) == key(x) && loc(y) != loc(x)
  {
    var keys := DistinctKeys(facts, key);
    var group := WithKey(facts, key, key(x));
    InconsistentIffTwoLocations(group, loc);
    if x in InconsistentLocations(facts, key, loc) {
      var i :| 0 <= i < |keys| && x in WithKey(facts, key, keys[i]) && Inconsistent(WithKey(facts, key, keys[i]), loc);
      assert keys[i] == key(x);
      var a, b :| 0 <= a < |group| && 0 <= b < |group| && loc(group[a]) != loc(group[b]);
      assert group[a] in group && group[b] in group;
      if loc(group[a]) != loc(x) {
        assert group[a] in facts && key(group[a]) == key(x);
      } else {
        assert group[b] in facts && key(group[b]) == key(x);
      }
    }
    if x in facts && exists y :: y in facts && key(y) == key(x) && loc(y) != loc(x) {
      var y :| y in facts && key(y) == key(x) && loc(y) != loc(x);
      assert x in group && y in group;
      var a :| 0 <= a < |group| && group[a] == x;
      var b :| 0 <= b < |group| && group[b] == y;
      var j :| 0 <= j < |facts| && facts[j] == x;
      assert key(x) in keys;
      var i :| 0 <= i < |keys| && keys[i] == key(x);
    }
  }
}

=== FILE: data_errors.dfy ===
/**
 The Data Errors report: the errors of every checked error group, group by
 group in list order.
 */
module DataErrors {

  /** An item of the error-group check list: its errors and whether it is checked. */
  datatype ErrorGroup<E> = ErrorGroup(errors: seq<E>, checked: bool)

  /** Number of errors in the checked groups. */
  function CheckedSize<E>(groups: seq<ErrorGroup<E>>): nat {
    if groups == [] then 0
    else (if groups[0].checked then |groups[0].errors| else 0) + CheckedSize(groups[1..])
  }

  /** The report's rows: the checked groups' errors concatenated in list order. */
  function DataErrors<E>(groups: seq<ErrorGroup<E>>): (r: seq<E>)
    ensures |r| == CheckedSize(groups)
  {
    if groups == [] then []
    else (if groups[0].checked then groups[0].errors else []) + DataErrors(groups[1..])
  }

  /**
   The report holds every error of a checked group, every row comes from a
   checked group, and nothing else is added: its length is the checked
   groups' total.
   */
  lemma {:induction false} DataErrorsContents<E>(groups: seq<ErrorGroup<E>>)
    ensures |DataErrors(groups)| == CheckedSize(groups)
    ensures forall i :: 0 <= i < |DataErrors(groups)| ==>
      exists g :: 0 <= g < |groups| && groups[g].checked && DataErrors(groups)[i] in groups[g].errors
    ensures forall g, j :: 0 <= g < |groups| && groups[g].checked && 0 <= j < |groups[g].errors| ==>
      groups[g].errors[j] in DataErrors(groups)
  {
    if groups != [] {
      var rest := DataErrors(groups[1..]);
      var head := if groups[0].checked then groups[0].errors else [];
      var r := DataErrors(groups);
      assert r == head + rest;
      DataErrorsContents(groups[1..]);
      forall i | 0 <= i < |DataErrors(groups)|
        ensures exists g :: 0 <= g < |groups| && groups[g].checked && DataErrors(groups)[i] in groups[g].errors
      {
        if i < |head| {
          assert groups[0].checked && r[i] in groups[0].errors;
        } else {
          assert r[i] == rest[i - |head|];
          var g :| 0 <= g < |groups[1..]| && groups[1..][g].checked && rest[i - |head|] in groups[1..][g].errors;
          assert groups[g + 1] == groups[1..][g];
          assert groups[g + 1].checked && r[i] in groups[g + 1].errors;
        }
      }
      forall g, j | 0 <= g < |groups| && groups[g].checked && 0 <= j < |groups[g].errors|
        ensures groups[g].errors[j] in r
      {
        if g == 0 {
          assert r[j] == groups[0].errors[j];
        } else {
          assert groups[1..][g - 1] == groups[g];
          assert groups[g].errors[j] in rest;
        }
      }
    } else {
      assert DataErrors(groups) == [];
    }
  }

  /** The report of two consecutive parts of the list is the two reports joined. */
  lemma {:induction false} DataErrorsAppend<E>(a: seq<ErrorGroup<E>>, b: seq<ErrorGroup<E>>)
    ensures DataErrors(a + b) == DataErrors(a) + DataErrors(b)
  {
    if a == [] {
      assert a + b == b;
    } else {
      assert (a + b)[1..] == a[1..] + b;
      DataErrorsAppend(a[1..], b);
    }
  }

  /** Unchecking every group empties the report. */
  lemma {:induction false} NoneCheckedIsEmpty<E>(groups: seq<ErrorGroup<E>>)
    requires forall g :: 0 <= g < |groups| ==> !groups[g].checked
    ensures DataErrors(groups) == []
  {
    if groups != [] {
      NoneCheckedIsEmpty(groups[1..]);
    }
  }

  /** With every group checked, the report holds each group's errors in full, in order. */
  lemma {:induction false} AllCheckedKeepsGroups<E>(groups: seq<ErrorGroup<E>>, g: nat)
    requires forall k :: 0 <= k < |groups| ==> groups[k].checked
    requires g < |groups|
    ensures DataErrors(groups) == DataErrors(groups[..g]) + groups[g].errors + DataErrors(groups[g + 1..])
  {
    assert groups == groups[..g] + ([groups[g]] + groups[g + 1..]);
    DataErrorsAppend(groups[..g], [groups[g]] + groups[g + 1..]);
    assert ([groups[g]] + groups[g + 1..])[1..] == groups[g + 1..];
  }
}

=== FILE: duplicates_tab.dfy ===
/**
 The guards around the possible-duplicates search on the Duplicates tab.

 The search itself runs on a worker and is not modelled; what is modelled is
 the sequence of handler effects on the user-interface thread: a search
 starts (progress bar shown, cancellation source created, slider value
 read), reports progress and a maximum score, and finishes with a result or
 a null. Between those, the user may move the slider, tick "hide ignored",
 press Cancel, click the grid, or re-select the tab.
 */
module DuplicatesTab {
  import opened Wrappers
  import opened NonDuplicates

  /** The score slider: its range, its position and its tick spacing. */
  datatype Slider = Slider(minimum: int, maximum: int, value: int, tick: int)

  /**
   The tab's state. `searching` is the shared visibility of the progress bar,
   the Cancel button and the "calculating" label; `tokenPresent` says that a
   cancellation source exists. `outstanding` counts searches started and not
   yet finished, and `cancelRequests` counts cancellations signalled.
   */
  datatype TabState<P> = TabState(
    searching: bool,
    tokenPresent: bool,
    rows: seq<DuplicateRow<P>>,
    nonDuplicates: seq<P>,
    hideIgnored: bool,
    savedHideIgnored: bool,
    slider: Slider,
    progress: int,
    progressMaximum: nat,
    lastScore: int,
    outstanding: nat,
    cancelRequests: nat)

  /** What happens on the tab. */
  datatype Event<P> =
    | SliderScrolled(position: int)
    | HideIgnoredClicked
    | TabSelected
    | CancelClicked
    | CellClicked(click: CellClick)
    | ProgressReported(value: int)
    | MaxScoreReported(score: int)
    | SearchFinished(data: Option<seq<DuplicateRow<P>>>)
    | SearchFaulted

  /** The progress callback: any reported value is pinned into [0, maximum]. */
  function ClampProgress(value: int, maximum: nat): (r: int)
    ensures 0 <= r <= maximum
    ensures 0 <= value <= maximum ==> r == value
    ensures value < 0 ==> r == 0
    ensures value > maximum ==> r == maximum
  {
    var v := if value < 0 then 0 else value;
    if v > maximum then maximum else v
  }

  /** C# integer division by 20, which truncates toward zero. */
  function TickFrequency(value: int): (r: int)
    ensures 0 <= r * value
    ensures Abs(value) - 20 < Abs(20 * r) <= Abs(value)
  {
    if value >= 0 then value / 20 else -((-value) / 20)
  }

  /** Absolute value. */
  function Abs(x: int): nat {
    if x < 0 then -x else x
  }

  /** True when the slider's position lies in its range, as a track bar keeps it. */
  predicate InRange(s: Slider) {
    s.minimum <= s.value <= s.maximum
  }

  /**
   `TrackBar.SetRange`: nothing happens when the range is already the one
   asked for; otherwise a maximum below the minimum is raised to it and the
   position is moved into the new range.
   */
  function SetRange(s: Slider, minValue: int, maxValue: int): (r: Slider)
    ensures r.tick == s.tick
    ensures s.minimum == minValue && s.maximum == maxValue ==> r == s
    ensures !(s.minimum == minValue && s.maximum == maxValue) ==>
      && r.minimum == minValue
      && r.maximum == (if maxValue < minValue then minValue else maxValue)
      && InRange(r)
      && (InRange(s.(minimum := r.minimum, maximum := r.maximum)) ==> r.value == s.value)
      && (s.value < r.minimum ==> r.value == r.minimum)
      && (s.value > r.maximum ==> r.value == r.maximum)
  {
    if s.minimum == minValue && s.maximum == maxValue then s
    else
      var hi := if maxValue < minValue then minValue else maxValue;
      var v := if s.value < minValue then minValue else if s.value > hi then hi else s.value;
      Slider(minValue, hi, v, s.tick)
  }

  /**
   The maximum-score callback: a tick every score/20, then the range [1,
   score], which the track bar widens to [1, 1] for a score below 1.
   */
  function SetMaxScore(s: Slider, score: int): (r: Slider)
    requires s.minimum <= s.maximum
    ensures r.minimum == 1
    ensures score >= 1 ==> r.maximum == score
    ensures score < 1 ==> r.maximum == 1
    ensures InRange(s) ==> InRange(r)
    ensures InRange(r) && s.value <= r.maximum && 1 <= s.value ==> r.value == s.value
    ensures r.tick == TickFrequency(score)
    ensures score >= 20 ==> 1 <= r.tick && 20 * r.tick <= score < 20 * (r.tick + 1)
  {
    SetRange(s.(tick := TickFrequency(score)), 1, score)
  }

  /** Entry to the search: progress controls shown, a cancellation source made, the slider read. */
  function StartSearch<P>(s: TabState<P>): (r: TabState<P>)
    ensures r.searching && r.tokenPresent
    ensures r.outstanding == s.outstanding + 1
    ensures r.lastScore == s.slider.value
    ensures r.rows == s.rows && r.nonDuplicates == s.nonDuplicates && r.slider == s.slider
    ensures r.hideIgnored == s.hideIgnored && r.savedHideIgnored == s.savedHideIgnored
    ensures r.cancelRequests == s.cancelRequests
  {
    s.(searching := true, tokenPresent := true, lastScore := s.slider.value, outstanding := s.outstanding + 1)
  }

  /** The check box's change handler: ignored while searching, else saves the setting and searches. */
  function OnHideIgnoredChanged<P>(s: TabState<P>): (r: TabState<P>)
    ensures s.searching ==> r == s
    ensures !s.searching ==> r.outstanding == s.outstanding + 1 && r.savedHideIgnored == s.hideIgnored
  {
    if s.searching then s
    else StartSearch(s.(savedHideIgnored := s.hideIgnored))
  }

  /**
   Selecting the Duplicates tab: the check box is set from the saved setting
   (its change handler runs only when that changes it), then a search starts
   with no guard at all.
   */
  function OnTabSelected<P>(s: TabState<P>): (r: TabState<P>)
    ensures r.searching && r.tokenPresent
    ensures r.hideIgnored == s.savedHideIgnored
    ensures r.outstanding == s.outstanding + 1
              + (if s.hideIgnored != s.savedHideIgnored && !s.searching then 1 else 0)
  {
    var t := s.(hideIgnored := s.savedHideIgnored);
    var u := if s.hideIgnored != s.savedHideIgnored then OnHideIgnoredChanged(t) else t;
    StartSearch(u)
  }

  /** The end of a search: controls hidden, source dropped, grid replaced only by non-null data. */
  function FinishSearch<P>(s: TabState<P>, data: Option<seq<DuplicateRow<P>>>): (r: TabState<P>)
    requires s.outstanding > 0
    ensures !r.searching && !r.tokenPresent
    ensures r.outstanding == s.outstanding - 1
    ensures r.rows == (if data.Some? then data.value else s.rows)
    ensures r.nonDuplicates == s.nonDuplicates && r.slider == s.slider
  {
    s.(searching := false, tokenPresent := false, outstanding := s.outstanding - 1,
       rows := if data.Some? then data.value else s.rows)
  }

  /**
   True when the event can happen in the state: the slider reports
   positions in its range and keeps its minimum at most its maximum, a
   click names a grid row, and a search that finishes or throws was started.
   */
  predicate Possible<P>(s: TabState<P>, e: Event<P>) {
    match e
    case SliderScrolled(v) => s.slider.minimum <= v <= s.slider.maximum
    case MaxScoreReported(_) => s.slider.minimum <= s.slider.maximum
    case CellClicked(c) => c.row < |s.rows|
    case SearchFinished(_) => s.outstanding > 0
    case SearchFaulted => s.outstanding > 0
    case _ => true
  }

  /** One handler run on the user-interface thread. */
  function Step<P>(s: TabState<P>, e: Event<P>, eq: (P, P) -> bool): (r: TabState<P>)
    requires Possible(s, e)
    ensures e.SliderScrolled? || e.HideIgnoredClicked? ==>
      (r.outstanding == s.outstanding + 1 <==> !s.searching) && (s.searching ==> r.outstanding == s.outstanding)
    ensures e.CancelClicked? ==>
      r == s.(cancelRequests := s.cancelRequests + (if s.tokenPresent then 1 else 0))
    ensures e.CellClicked? && s.searching ==> r == s
    ensures e.SearchFinished? ==> !r.searching && (e.data.None? ==> r.rows == s.rows)
    ensures e.ProgressReported? ==> 0 <= r.progress <= r.progressMaximum
    ensures e.SearchFaulted? ==> r == s.(outstanding := s.outstanding - 1)
  {
    match e
    case SliderScrolled(v) =>
      var t := s.(slider := s.slider.(value := v));
      if t.searching then t else StartSearch(t)
    case HideIgnoredClicked =>
      OnHideIgnoredChanged(s.(hideIgnored := !s.hideIgnored))
    case TabSelected =>
      OnTabSelected(s)
    case CancelClicked =>
      if s.tokenPresent then s.(cancelRequests := s.cancelRequests + 1) else s
    case CellClicked(c) =>
      var ig := ToggleIgnore(s.rows, s.nonDuplicates, c, s.searching, eq);
      s.(rows := ig.rows, nonDuplicates := ig.nonDuplicates)
    case ProgressReported(v) =>
      s.(progress := ClampProgress(v, s.progressMaximum))
    case MaxScoreReported(m) =>
      s.(slider := SetMaxScore(s.slider, m))
    case SearchFinished(d) =>
      FinishSearch(s, d)
    case SearchFaulted =>
      s.(outstanding := s.outstanding - 1)
  }

  /** At most one search at a time, and the progress controls and cancellation source show exactly when one runs. */
  predicate Serial<P>(s: TabState<P>) {
    && s.outstanding <= 1
    && (s.searching <==> s.outstanding == 1)
    && (s.tokenPresent <==> s.outstanding == 1)
  }

  /**
   The tab as the window first builds it: nothing running, nothing
   cancelled. The check box holds whatever the window's layout gives it,
   `boxChecked`, which need not match the saved setting until the tab is
   first selected.
   */
  function Initial<P>(slider: Slider, progressMaximum: nat, nonDuplicates: seq<P>, boxChecked: bool, savedHideIgnored: bool): (r: TabState<P>)
    ensures Serial(r) && r.outstanding == 0 && r.cancelRequests == 0 && r.rows == []
    ensures r.hideIgnored == boxChecked && r.savedHideIgnored == savedHideIgnored
    ensures r.nonDuplicates == nonDuplicates && r.slider == slider
  {
    TabState(false, false, [], nonDuplicates, boxChecked, savedHideIgnored, slider, 0, progressMaximum, 0, 0, 0)
  }

  /**
   The first selection of the tab syncs the check box to the setting. When
   the two differ, the box's change handler starts a search and the tab
   handler starts another, so two run at once from the very first visit.
   */
  lemma FirstVisitSearches<P>(slider: Slider, progressMaximum: nat, nonDuplicates: seq<P>, boxChecked: bool,
                              savedHideIgnored: bool, eq: (P, P) -> bool)
    ensures var t := Step(Initial(slider, progressMaximum, nonDuplicates, boxChecked, savedHideIgnored), TabSelected, eq);
            && t.hideIgnored == savedHideIgnored
            && t.outstanding == (if boxChecked == savedHideIgnored then 1 else 2)
            && (Serial(t) <==> boxChecked == savedHideIgnored)
  {
  }

  /**
   The events that keep one search at a time: all but a tab selection, and a
   tab selection only while idle with the check box matching its setting,
   and no search that throws. This excludes a first visit whose check box
   differs from the setting (FirstVisitSearches), a re-selection after the
   box was clicked during a search (ClickDuringSearchThenReselect), and a
   faulted search (FaultLeavesControlsShown).
   */
  predicate Guarded<P>(s: TabState<P>, e: Event<P>) {
    && !e.SearchFaulted?
    && (e.TabSelected? ==> !s.searching && s.hideIgnored == s.savedHideIgnored)
  }

  /** Every guarded event keeps at most one search outstanding. */
  lemma StepKeepsSerial<P>(s: TabState<P>, e: Event<P>, eq: (P, P) -> bool)
    requires Serial(s) && Possible(s, e) && Guarded(s, e)
    ensures Serial(Step(s, e, eq))
  {
  }

  /** A run of guarded events from a serial state stays serial throughout. */
  lemma {:induction false} TraceKeepsSerial<P>(s: TabState<P>, events: seq<Event<P>>, eq: (P, P) -> bool)
    requires Serial(s)
    requires TraceOk(s, events, eq)
    ensures Serial(Run(s, events, eq))
    decreases |events|
  {
    if events != [] {
      StepKeepsSerial(s, events[0], eq);
      TraceKeepsSerial(Step(s, events[0], eq), events[1..], eq);
    }
  }

  /** Every event is possible and guarded in the state it meets. */
  ghost predicate TraceOk<P>(s: TabState<P>, events: seq<Event<P>>, eq: (P, P) -> bool)
    decreases |events|
  {
    events == [] ||
    (Possible(s, events[0]) && Guarded(s, events[0]) && TraceOk(Step(s, events[0], eq), events[1..], eq))
  }

  /** The state after a run of events. */
  function Run<P>(s: TabState<P>, events: seq<Event<P>>, eq: (P, P) -> bool): TabState<P>
    requires TraceOk(s, events, eq)
    decreases |events|
  {
    if events == [] then s else Run(Step(s, events[0], eq), events[1..], eq)
  }

  /**
   Re-selecting the tab during a search starts a second one; when either
   finishes, the progress controls disappear although a search still runs,
   and the slider may then start a third.
   */
  lemma ReselectBreaksSerial<P>(s: TabState<P>, eq: (P, P) -> bool)
    requires Serial(s) && s.searching && s.hideIgnored == s.savedHideIgnored
    requires s.slider.minimum <= s.slider.value <= s.slider.maximum
    ensures var t := Step(s, TabSelected, eq);
            && t.outstanding == 2
            && var u := Step(t, SearchFinished(None), eq);
            && !u.searching && u.outstanding == 1 && !Serial(u)
            && Step(u, SliderScrolled(s.slider.value), eq).outstanding == 2
  {
  }

  /**
   A click on the check box during a search flips the box but is not saved.
   Once that search finishes, one search at a time still holds, but the box
   and the setting differ, so selecting the tab again starts two searches.
   */
  lemma ClickDuringSearchThenReselect<P>(s: TabState<P>, data: Option<seq<DuplicateRow<P>>>, eq: (P, P) -> bool)
    requires Serial(s) && s.searching && s.hideIgnored == s.savedHideIgnored
    ensures var t := Step(s, HideIgnoredClicked, eq);
            && t.outstanding == 1
            && var u := Step(t, SearchFinished(data), eq);
            && Serial(u) && u.hideIgnored != u.savedHideIgnored
            && Step(u, TabSelected, eq).outstanding == 2
  {
  }

  /**
   A search that throws skips the rest of the search handler: the progress
   controls stay shown and the cancellation source stays set, though nothing
   runs. The slider and the check box then start nothing; only selecting the
   tab again starts a search, and that restores one search at a time.
   */
  lemma FaultLeavesControlsShown<P>(s: TabState<P>, v: int, eq: (P, P) -> bool)
    requires Serial(s) && s.searching
    requires s.slider.minimum <= v <= s.slider.maximum
    ensures var t := Step(s, SearchFaulted, eq);
            && t.searching && t.tokenPresent && t.outstanding == 0 && !Serial(t)
            && Step(t, SliderScrolled(v), eq).outstanding == 0
            && Step(t, HideIgnoredClicked, eq).outstanding == 0
            && Serial(Step(t, TabSelected, eq)) && Step(t, TabSelected, eq).outstanding == 1
  {
  }

  /** Progress clamping is idempotent. */
  lemma ClampIdempotent(value: int, maximum: nat)
    ensures ClampProgress(ClampProgress(value, maximum), maximum) == ClampProgress(value, maximum)
  {
  }

  /** Progress clamping preserves the order of reported values. */
  lemma ClampMonotonic(a: int, b: int, maximum: nat)
    requires a <= b
    ensures ClampProgress(a, maximum) <= ClampProgress(b, maximum)
  {
  }
}

=== FILE: fact_types.dfy ===
/**
 The fact-type check lists of the Facts tab: building them from the loaded
 facts and the registry, reading back the checked types, selecting or
 clearing them all, and the Show Facts button.

 The registry is a map from value names to the strings stored under them;
 a Boolean is stored as "True" or "False".
 */
module FactTypes {

  import opened Wrappers

  /** An item of a check list. */
  datatype CheckItem = CheckItem(name: string, checked: bool)

  /** Which of the two lists is meant. */
  datatype ListKind = SelectList | ExcludeList

  /** The two lists after they are rebuilt. */
  datatype FactLists = FactLists(select: seq<CheckItem>, exclude: seq<CheckItem>)

  /** The Show Facts button. */
  datatype ShowButton = ShowButton(text: string, enabled: bool)

  type Registry = map<string, string>

  /** Registry value-name prefixes: selection flags, exclusion flags as written, and as read back. */
  const SelectPrefix: string := "Fact: "
  const ExcludePrefix: string := "Exclude Fact: "
  const ExcludeReadPrefix: string := "Exlude Fact: "

  /** The three captions of the Show Facts button. */
  const MissingText: string := "Show all Facts for Individuals who are missing the selected excluded Fact Types"
  const SelectedText: string := "Show only the selected Facts for Individuals"
  const ExcludedSuffix: string := " who don't have any of the excluded Fact Types"

  /** `GetValue(name, default)`. */
  function GetValue(reg: Registry, name: string, default: string): string {
    if name in reg then reg[name] else default
  }

  /** How `SetValue` stores a Boolean. */
  function BoolText(b: bool): string {
    if b then "True" else "False"
  }

  // ---------------------------------------------------------------------
  // Ordinal string order

  /** Ordinal (character code) lexicographic order on strings. */
  predicate Less(a: string, b: string) {
    if |a| == 0 then |b| > 0
    else if |b| == 0 then false
    else if a[0] != b[0] then a[0] < b[0]
    else Less(a[1..], b[1..])
  }

  lemma {:induction false} LessIrreflexive(a: string)
    ensures !Less(a, a)
  {
    if |a| > 0 {
      LessIrreflexive(a[1..]);
    }
  }

  lemma {:induction false} LessTransitive(a: string, b: string, c: string)
    requires Less(a, b) && Less(b, c)
    ensures Less(a, c)
  {
    if |a| > 0 && a[0] == b[0] && b[0] == c[0] {
      LessTransitive(a[1..], b[1..], c[1..]);
    }
  }

  lemma {:induction false} LessTotal(a: string, b: string)
    requires a != b
    ensures Less(a, b) || Less(b, a)
  {
    if |a| > 0 && |b| > 0 && a[0] == b[0] {
      assert a[1..] != b[1..] by {
        assert a == [a[0]] + a[1..] && b == [b[0]] + b[1..];
      }
      LessTotal(a[1..], b[1..]);
    }
  }

  lemma {:induction false} LessAsymmetric(a: string, b: string)
    ensures Less(a, b) ==> !Less(b, a)
  {
    if Less(a, b) && Less(b, a) {
      LessTransitive(a, b, a);
      LessIrreflexive(a);
    }
  }

  /** Strictly ascending: sorted and without repeats. */
  predicate StrictlySorted(s: seq<string>) {
    forall i, j :: 0 <= i < j < |s| ==> Less(s[i], s[j])
  }

  /** Puts `x` into its place in a strictly sorted list, unless it is there already. */
  function Insert(s: seq<string>, x: string): (r: seq<string>)
    requires StrictlySorted(s)
    ensures StrictlySorted(r)
    ensures forall y :: y in r <==> y in s || y == x
  {
    if s == [] then [x]
    else if x == s[0] then s
    else if Less(x, s[0]) then
      assert forall j :: 0 < j < |s| ==> Less(x, s[j]) by {
        forall j | 0 < j < |s|
          ensures Less(x, s[j])
        {
          LessTransitive(x, s[0], s[j]);
        }
      }
      [x] + s
    else
      LessTotal(x, s[0]);
      var rest := Insert(s[1..], x);
      assert forall y :: y in rest ==> Less(s[0], y) by {
        forall y | y in rest
          ensures Less(s[0], y)
        {
          if y != x {
            var j :| 0 <= j < |s[1..]| && s[1..][j] == y;
            assert s[j + 1] == y;
          }
        }
      }
      [s[0]] + rest
  }

  /**
   The distinct fact types in ascending order, as `Distinct()` followed by
   `Sort()` leaves them.
   */
  function SortedDistinct(types: seq<string>): (r: seq<string>)
    ensures StrictlySorted(r)
    ensures forall y :: y in r <==> y in types
  {
    if types == [] then []
    else
      var r := Insert(SortedDistinct(types[..|types| - 1]), types[|types| - 1]);
      assert forall y :: y in types <==> y in types[..|types| - 1] || y == types[|types| - 1] by {
        assert types == types[..|types| - 1] + [types[|types| - 1]];
      }
      r
  }

  /** A list is empty exactly when nothing is a member of it. */
  lemma EmptyIffNoMembers(s: seq<string>)
    ensures s == [] <==> forall y :: y !in s
  {
    if s != [] {
      assert s[0] in s;
    }
  }

  /** The head of a strictly sorted list is below every other member. */
  lemma HeadIsLeast(s: seq<string>, y: string)
    requires StrictlySorted(s) && y in s
    ensures y == s[0] || Less(s[0], y)
  {
    var j :| 0 <= j < |s| && s[j] == y;
  }

  /** Two strictly sorted lists with the same members are the same list. */
  lemma {:induction false} SortedUnique(a: seq<string>, b: seq<string>)
    requires StrictlySorted(a) && StrictlySorted(b)
    requires forall y :: y in a <==> y in b
    ensures a == b
  {
    EmptyIffNoMembers(a);
    EmptyIffNoMembers(b);
    if a != [] {
      assert a[0] in a && b[0] in b;
      HeadIsLeast(a, b[0]);
      HeadIsLeast(b, a[0]);
      LessAsymmetric(a[0], b[0]);
      assert a[0] == b[0];
      forall y
        ensures y in a[1..] <==> y in b[1..]
      {
        if y in a[1..] {
          var i :| 0 <= i < |a[1..]| && a[1..][i] == y;
          assert Less(a[0], y);
          LessIrreflexive(y);
          assert y in b;
        }
        if y in b[1..] {
          var i :| 0 <= i < |b[1..]| && b[1..][i] == y;
          assert Less(b[0], y);
          LessIrreflexive(y);
          assert y in a;
        }
      }
      SortedUnique(a[1..], b[1..]);
      assert a == [a[0]] + a[1..] && b == [b[0]] + b[1..];
    }
  }

  // ---------------------------------------------------------------------
  // Building and reading the lists

  /** The items for the given names, each checked when its registry flag, read with `default`, is "True". */
  function CheckItems(names: seq<string>, reg: Registry, prefix: string, default: string): (r: seq<CheckItem>)
    ensures |r| == |names|
    ensures forall i :: 0 <= i < |r| ==>
      r[i].name == names[i] && (r[i].checked <==> GetValue(reg, prefix + names[i], default) == "True")
  {
    seq(|names|, i requires 0 <= i < |names| => CheckItem(names[i], GetValue(reg, prefix + names[i], default) == "True"))
  }

  /** The names of the items. */
  function Names(items: seq<CheckItem>): (r: seq<string>)
    ensures |r| == |items| && forall i :: 0 <= i < |r| ==> r[i] == items[i].name
  {
    seq(|items|, i requires 0 <= i < |items| => items[i].name)
  }

  /**
   Rebuilding both lists from the fact types of the filtered facts: each
   distinct type once, in ascending order, in both lists; a selection flag
   defaults to checked and an exclusion flag to unchecked, the latter read
   under `excludePrefix`.
   */
  function BuildLists(types: seq<string>, reg: Registry, excludePrefix: string): (r: FactLists)
    ensures Names(r.select) == Names(r.exclude)
    ensures StrictlySorted(Names(r.select))
    ensures forall y :: y in Names(r.select) <==> y in types
    ensures forall i :: 0 <= i < |r.select| ==>
      (r.select[i].checked <==> GetValue(reg, SelectPrefix + r.select[i].name, "True") == "True")
    ensures forall i :: 0 <= i < |r.exclude| ==>
      (r.exclude[i].checked <==> GetValue(reg, excludePrefix + r.exclude[i].name, "False") == "True")
  {
    var names := SortedDistinct(types);
    var r := FactLists(CheckItems(names, reg, SelectPrefix, "True"), CheckItems(names, reg, excludePrefix, "False"));
    assert Names(r.select) == names && Names(r.exclude) == names;
    r
  }

  /** `SetFactTypeList` as written: exclusion flags are read under the misspelt prefix. */
  function SetFactTypeList(types: seq<string>, reg: Registry): (r: FactLists)
    ensures Names(r.select) == Names(r.exclude) && StrictlySorted(Names(r.select))
    ensures forall y :: y in Names(r.select) <==> y in types
    ensures forall i :: 0 <= i < |r.select| ==>
      (r.select[i].checked <==> GetValue(reg, "Fact: " + r.select[i].name, "True") == "True")
    ensures forall i :: 0 <= i < |r.exclude| ==>
      (r.exclude[i].checked <==> GetValue(reg, "Exlude Fact: " + r.exclude[i].name, "False") == "True")
  {
    BuildLists(types, reg, ExcludeReadPrefix)
  }

  /** `SetFactTypeList` corrected to read exclusion flags under the prefix they are stored with. */
  function SetFactTypeListFixed(types: seq<string>, reg: Registry): (r: FactLists)
    ensures Names(r.select) == Names(r.exclude) && StrictlySorted(Names(r.select))
    ensures forall y :: y in Names(r.select) <==> y in types
    ensures forall i :: 0 <= i < |r.select| ==>
      (r.select[i].checked <==> GetValue(reg, "Fact: " + r.select[i].name, "True") == "True")
    ensures forall i :: 0 <= i < |r.exclude| ==>
      (r.exclude[i].checked <==> GetValue(reg, "Exclude Fact: " + r.exclude[i].name, "False") == "True")
  {
    BuildLists(types, reg, ExcludePrefix)
  }

  /**
   The registry after storing `value` under `prefix` + each name, one name
   after another: exactly the listed names' keys are added, and no others.
   */
  function StoreFlags(names: seq<string>, value: string, prefix: string, reg: Registry): (r: Registry)
    ensures r.Keys == reg.Keys + set i | 0 <= i < |names| :: prefix + names[i]
    decreases |names|
  {
    if names == [] then reg
    else
      var tail := names[1..];
      var r := StoreFlags(tail, value, prefix, reg[prefix + names[0] := value]);
      assert forall i :: 0 <= i < |tail| ==> tail[i] == names[i + 1];
      assert forall i :: 1 <= i < |names| ==> names[i] == tail[i - 1];
      assert (set i | 0 <= i < |names| :: prefix + names[i])
          == {prefix + names[0]} + set i | 0 <= i < |tail| :: prefix + tail[i];
      r
  }

  /** A key already holding `value` still holds it after storing. */
  lemma {:induction false} StoreFlagsKeepsValue(names: seq<string>, value: string, prefix: string, reg: Registry, k: string)
    requires k in reg && reg[k] == value
    ensures k in StoreFlags(names, value, prefix, reg) && StoreFlags(names, value, prefix, reg)[k] == value
    decreases |names|
  {
    if names != [] {
      StoreFlagsKeepsValue(names[1..], value, prefix, reg[prefix + names[0] := value], k);
    }
  }

  /** Every name's key holds `value` after storing. */
  lemma {:induction false} StoreFlagsWrites(names: seq<string>, value: string, prefix: string, reg: Registry, i: nat)
    requires i < |names|
    ensures prefix + names[i] in StoreFlags(names, value, prefix, reg)
         && StoreFlags(names, value, prefix, reg)[prefix + names[i]] == value
    decreases |names|
  {
    var reg0 := reg[prefix + names[0] := value];
    if i == 0 {
      StoreFlagsKeepsValue(names[1..], value, prefix, reg0, prefix + names[0]);
    } else {
      assert names[1..][i - 1] == names[i];
      StoreFlagsWrites(names[1..], value, prefix, reg0, i - 1);
    }
  }

  /** Keys of no listed name keep their old value. */
  lemma {:induction false} StoreFlagsKeeps(names: seq<string>, value: string, prefix: string, reg: Registry, k: string)
    requires k in reg && forall i :: 0 <= i < |names| ==> k != prefix + names[i]
    ensures k in StoreFlags(names, value, prefix, reg) && StoreFlags(names, value, prefix, reg)[k] == reg[k]
    decreases |names|
  {
    if names != [] {
      assert k != prefix + names[0];
      assert forall i :: 0 <= i < |names[1..]| ==> names[1..][i] == names[i + 1];
      StoreFlagsKeeps(names[1..], value, prefix, reg[prefix + names[0] := value], k);
    }
  }

  /** Select-all or deselect-all: every item set to `selected`, and its flag stored under `prefix`. */
  function SetFactTypes(items: seq<CheckItem>, selected: bool, prefix: string, reg: Registry): (r: (seq<CheckItem>, Registry))
    ensures Names(r.0) == Names(items)
    ensures forall i :: 0 <= i < |r.0| ==> r.0[i].checked == selected
    ensures forall i :: 0 <= i < |items| ==> prefix + items[i].name in r.1 && r.1[prefix + items[i].name] == BoolText(selected)
    ensures forall k :: k in reg && (forall i :: 0 <= i < |items| ==> k != prefix + items[i].name) ==> k in r.1 && r.1[k] == reg[k]
    ensures r.1.Keys == reg.Keys + set i | 0 <= i < |items| :: prefix + items[i].name
  {
    var names := Names(items);
    var reg' := StoreFlags(names, BoolText(selected), prefix, reg);
    assert (set i | 0 <= i < |names| :: prefix + names[i]) == set i | 0 <= i < |items| :: prefix + items[i].name;
    assert forall i :: 0 <= i < |items| ==> prefix + items[i].name in reg' && reg'[prefix + items[i].name] == BoolText(selected) by {
      forall i | 0 <= i < |items|
        ensures prefix + items[i].name in reg' && reg'[prefix + items[i].name] == BoolText(selected)
      {
        StoreFlagsWrites(names, BoolText(selected), prefix, reg, i);
      }
    }
    assert forall k :: k in reg && (forall i :: 0 <= i < |items| ==> k != prefix + items[i].name) ==> k in reg' && reg'[k] == reg[k] by {
      forall k | k in reg && (forall i :: 0 <= i < |items| ==> k != prefix + items[i].name)
        ensures k in reg' && reg'[k] == reg[k]
      {
        StoreFlagsKeeps(names, BoolText(selected), prefix, reg, k);
      }
    }
    (seq(|items|, i requires 0 <= i < |items| => CheckItem(items[i].name, selected)), reg')
  }

  /** One item clicked: its check mark flips and the new state is stored under `prefix` + its name. */
  function ToggleItem(items: seq<CheckItem>, index: nat, prefix: string, reg: Registry): (r: (seq<CheckItem>, Registry))
    requires index < |items|
    ensures Names(r.0) == Names(items)
    ensures r.0[index].checked == !items[index].checked
    ensures forall i :: 0 <= i < |items| && i != index ==> r.0[i] == items[i]
    ensures prefix + items[index].name in r.1 && r.1[prefix + items[index].name] == BoolText(r.0[index].checked)
    ensures forall k :: k in reg && k != prefix + items[index].name ==> k in r.1 && r.1[k] == reg[k]
    ensures r.1.Keys == reg.Keys + {prefix + items[index].name}
  {
    var x := items[index];
    (items[index := CheckItem(x.name, !x.checked)], reg[prefix + x.name := BoolText(!x.checked)])
  }

  /** Two clicks on the same item restore the list, and the stored flag again agrees with it. */
  lemma ToggleItemTwice(items: seq<CheckItem>, index: nat, prefix: string, reg: Registry)
    requires index < |items|
    ensures var once := ToggleItem(items, index, prefix, reg);
            var twice := ToggleItem(once.0, index, prefix, once.1);
            twice.0 == items && twice.1[prefix + items[index].name] == BoolText(items[index].checked)
  {
    var once := ToggleItem(items, index, prefix, reg);
    var twice := ToggleItem(once.0, index, prefix, once.1);
    assert once.0[index].name == items[index].name;
    assert twice.0[index] == items[index];
  }

  /**
   `CkbFactSelect_MouseClick` as written. `index` is the item under the
   pointer, or -1 when there is none; only an item after the first is toggled.
   */
  function SelectClick(items: seq<CheckItem>, index: int, reg: Registry): (r: (seq<CheckItem>, Registry))
    requires -1 <= index < |items|
    ensures r.0 == items <==> index <= 0
    ensures index <= 0 ==> r.1 == reg
    ensures index > 0 ==> r == ToggleItem(items, index, SelectPrefix, reg)
  {
    if index > 0 then ToggleItem(items, index, SelectPrefix, reg) else (items, reg)
  }

  /** `CkbFactSelect_MouseClick` corrected so that every item, the first included, can be toggled. */
  function SelectClickFixed(items: seq<CheckItem>, index: int, reg: Registry): (r: (seq<CheckItem>, Registry))
    requires -1 <= index < |items|
    ensures r.0 == items <==> index == -1
    ensures index == -1 ==> r.1 == reg
    ensures index >= 0 ==> r == ToggleItem(items, index, SelectPrefix, reg)
  {
    if index >= 0 then ToggleItem(items, index, SelectPrefix, reg) else (items, reg)
  }

  /**
   `CkbFactExclude_MouseClick` as written: there is no guard, so a click
   off the items (index -1) throws when the item is looked up (`None`).
   */
  function ExcludeClick(items: seq<CheckItem>, index: int, reg: Registry): (r: Option<(seq<CheckItem>, Registry)>)
    requires -1 <= index < |items|
    ensures r.None? <==> index == -1
    ensures r.Some? ==> r.value == ToggleItem(items, index, ExcludePrefix, reg)
  {
    if index == -1 then None else Some(ToggleItem(items, index, ExcludePrefix, reg))
  }

  /** `CkbFactExclude_MouseClick` corrected to ignore a click off the items. */
  function ExcludeClickFixed(items: seq<CheckItem>, index: int, reg: Registry): (r: (seq<CheckItem>, Registry))
    requires -1 <= index < |items|
    ensures r.0 == items <==> index == -1
    ensures index == -1 ==> r.1 == reg
    ensures index >= 0 ==> r == ToggleItem(items, index, ExcludePrefix, reg)
  {
    if index >= 0 then ToggleItem(items, index, ExcludePrefix, reg) else (items, reg)
  }

  /** As written, a click on the first selection item changes nothing; corrected, it flips the item. */
  lemma FirstItemClickIgnored(items: seq<CheckItem>, reg: Registry)
    requires |items| > 0
    ensures SelectClick(items, 0, reg) == (items, reg)
    ensures SelectClickFixed(items, 0, reg).0[0].checked == !items[0].checked
  {
  }

  /** As written, a click below the exclusion items throws; corrected, it changes nothing. */
  lemma MissedExcludeClickThrows(items: seq<CheckItem>, reg: Registry)
    ensures ExcludeClick(items, -1, reg).None?
    ensures ExcludeClickFixed(items, -1, reg) == (items, reg)
  {
  }

  /** The checked items' names in list order, leaving out the two created relationship types unless asked. */
  function CheckedNames(items: seq<CheckItem>, includeCreated: bool, parentType: string, childrenType: string): (r: seq<string>)
    ensures |r| <= |items|
    ensures forall y :: y in r <==> exists i :: 0 <= i < |items| && items[i].checked && items[i].name == y
                                         && (includeCreated || (y != parentType && y != childrenType))
  {
    if items == [] then []
    else
      var rest := CheckedNames(items[1..], includeCreated, parentType, childrenType);
      var x := items[0];
      assert forall i :: 1 <= i < |items| ==> items[i] == items[1..][i - 1];
      assert forall i :: 0 <= i < |items[1..]| ==> items[1..][i] == items[i + 1];
      if Listed(x, includeCreated, parentType, childrenType) then [x.name] + rest
      else rest
  }

  /** Whether an item's name goes into the list `CheckedNames` builds. */
  predicate Listed(x: CheckItem, includeCreated: bool, parentType: string, childrenType: string) {
    x.checked && (includeCreated || (x.name != parentType && x.name != childrenType))
  }

  /** A single item contributes its name exactly when it is listed. */
  lemma CheckedNamesOne(x: CheckItem, includeCreated: bool, parentType: string, childrenType: string)
    ensures CheckedNames([x], includeCreated, parentType, childrenType)
         == if Listed(x, includeCreated, parentType, childrenType) then [x.name] else []
  {
    assert [x][1..] == [];
  }

  /** The names of two consecutive runs of items come out in the same order, one run after the other. */
  lemma {:induction false} CheckedNamesAppend(a: seq<CheckItem>, b: seq<CheckItem>, includeCreated: bool,
                                              parentType: string, childrenType: string)
    ensures CheckedNames(a + b, includeCreated, parentType, childrenType)
         == CheckedNames(a, includeCreated, parentType, childrenType) + CheckedNames(b, includeCreated, parentType, childrenType)
    decreases |a|
  {
    if a != [] {
      assert (a + b)[1..] == a[1..] + b;
      CheckedNamesAppend(a[1..], b, includeCreated, parentType, childrenType);
    } else {
      assert a + b == b;
    }
  }

  /**
   With the created types included, the list holds one name per checked
   item; without them, at most that many.
   */
  lemma {:induction false} CheckedNamesCount(items: seq<CheckItem>, includeCreated: bool, parentType: string, childrenType: string)
    ensures |CheckedNames(items, includeCreated, parentType, childrenType)| <= CheckedCount(items)
    ensures includeCreated ==> |CheckedNames(items, includeCreated, parentType, childrenType)| == CheckedCount(items)
    decreases |items|
  {
    if items != [] {
      CheckedNamesCount(items[1..], includeCreated, parentType, childrenType);
    }
  }

  /**
   `BuildFactTypeList`: nothing for the exclusion list while it is hidden;
   otherwise the checked types in list order, without the parent and
   children types when `includeCreated` is false.
   */
  function BuildFactTypeList(items: seq<CheckItem>, kind: ListKind, excludeVisible: bool, includeCreated: bool,
                             parentType: string, childrenType: string): (r: seq<string>)
    ensures kind == ExcludeList && !excludeVisible ==> r == []
    ensures !(kind == ExcludeList && !excludeVisible) ==> r == CheckedNames(items, includeCreated, parentType, childrenType)
  {
    if kind == ExcludeList && !excludeVisible then []
    else CheckedNames(items, includeCreated, parentType, childrenType)
  }

  /** Number of checked items. */
  function CheckedCount(items: seq<CheckItem>): (n: nat)
    ensures n <= |items|
    ensures n > 0 <==> exists i :: 0 <= i < |items| && items[i].checked
  {
    if items == [] then 0
    else
      assert forall i :: 0 <= i < |items[1..]| ==> items[1..][i] == items[i + 1];
      assert forall i :: 1 <= i < |items| ==> items[i] == items[1..][i - 1];
      (if items[0].checked then 1 else 0) + CheckedCount(items[1..])
  }

  /** `SetShowFactsButton`: the caption and enabled state from the two lists' checked counts. */
  function SetShowFactsButton(select: seq<CheckItem>, exclude: seq<CheckItem>, excludeVisible: bool): (b: ShowButton)
    ensures b.enabled <==> CheckedCount(select) > 0 || (excludeVisible && CheckedCount(exclude) > 0)
    ensures CheckedCount(select) == 0 && CheckedCount(exclude) > 0 ==> b.text == MissingText
    ensures !(CheckedCount(select) == 0 && CheckedCount(exclude) > 0) ==>
      b.text == SelectedText + (if excludeVisible then ExcludedSuffix else "")
  {
    var text :=
      if CheckedCount(select) == 0 && CheckedCount(exclude) > 0 then MissingText
      else SelectedText + (if excludeVisible then ExcludedSuffix else "");
    ShowButton(text, CheckedCount(select) > 0 || (excludeVisible && CheckedCount(exclude) > 0))
  }

  /**
   The button is enabled exactly when Show Facts would pass a non-empty
   selection or a non-empty exclusion list (both built with created types).
   */
  lemma ButtonEnabledIffListsNonEmpty(select: seq<CheckItem>, exclude: seq<CheckItem>, excludeVisible: bool,
                                      parentType: string, childrenType: string)
    ensures SetShowFactsButton(select, exclude, excludeVisible).enabled <==>
      |BuildFactTypeList(select, SelectList, excludeVisible, true, parentType, childrenType)| > 0
      || |BuildFactTypeList(exclude, ExcludeList, excludeVisible, true, parentType, childrenType)| > 0
  {
    var s := BuildFactTypeList(select, SelectList, excludeVisible, true, parentType, childrenType);
    var e := BuildFactTypeList(exclude, ExcludeList, excludeVisible, true, parentType, childrenType);
    if CheckedCount(select) > 0 {
      var i :| 0 <= i < |select| && select[i].checked;
      assert select[i].name in s;
    }
    if |s| > 0 {
      assert s[0] in s;
    }
    if excludeVisible && CheckedCount(exclude) > 0 {
      var i :| 0 <= i < |exclude| && exclude[i].checked;
      assert exclude[i].name in e;
    }
    if |e| > 0 {
      assert e[0] in e;
    }
  }

  /** The rebuilt lists do not depend on the order or repetition of the facts, under either prefix. */
  lemma ListsIgnoreFactOrder(types1: seq<string>, types2: seq<string>, reg: Registry, excludePrefix: string)
    requires forall y :: y in types1 <==> y in types2
    ensures BuildLists(types1, reg, excludePrefix) == BuildLists(types2, reg, excludePrefix)
  {
    SortedUnique(SortedDistinct(types1), SortedDistinct(types2));
  }

  /**
   With the prefix fixed, excluding every type persists: after "exclude all"
   on the rebuilt exclusion list, rebuilding the lists shows every type
   excluded.
   */
  lemma ExcludeAllPersists(types: seq<string>, reg: Registry)
    ensures var lists := SetFactTypeListFixed(types, reg);
            var reg' := SetFactTypes(lists.exclude, true, ExcludePrefix, reg).1;
            forall i :: 0 <= i < |SetFactTypeListFixed(types, reg').exclude| ==> SetFactTypeListFixed(types, reg').exclude[i].checked
  {
    var lists := SetFactTypeListFixed(types, reg);
    var reg' := SetFactTypes(lists.exclude, true, ExcludePrefix, reg).1;
    var again := SetFactTypeListFixed(types, reg').exclude;
    assert Names(again) == SortedDistinct(types) == Names(lists.exclude);
    forall i | 0 <= i < |again|
      ensures again[i].checked
    {
      assert again[i].name == lists.exclude[i].name;
    }
  }

  /**
   As written, the same round trip loses the exclusions: "exclude all" on a
   one-type list stores "Exclude Fact: Birth", while the rebuilt list reads
   "Exlude Fact: Birth" and shows the type unchecked.
   */
  lemma ExcludeAllLostAsWritten()
    ensures var lists := SetFactTypeList(["Birth"], map[]);
            var reg' := SetFactTypes(lists.exclude, true, ExcludePrefix, map[]).1;
            && |lists.exclude| == 1 && |SetFactTypeList(["Birth"], reg').exclude| == 1
            && !SetFactTypeList(["Birth"], reg').exclude[0].checked
  {
    var lists := SetFactTypeList(["Birth"], map[]);
    assert SortedDistinct(["Birth"]) == ["Birth"];
    assert Names(lists.exclude) == ["Birth"];
    var reg' := SetFactTypes(lists.exclude, true, ExcludePrefix, map[]).1;
    assert lists.exclude[0].name == "Birth";
    assert reg' == map[ExcludePrefix + "Birth" := "True"];
    assert ExcludeReadPrefix + "Birth" != ExcludePrefix + "Birth" by {
      assert (ExcludeReadPrefix + "Birth")[2] != (ExcludePrefix + "Birth")[2];
    }
  }
}

=== FILE: form_disposal.dfy ===
/**
 Closing the open windows that a newly opened report window replaces.

 A window is described by its identity, its kind and its visibility. A
 census window carries its census date and Lost Cousins flag; a facts
 window its individual and family, either of which may be null; any other
 window only its type name. The `Equals` methods of census dates,
 individuals and families are parameters; `x.Equals(null)` is false, as
 .NET requires of every `Equals`.
 */
module FormDisposal {
  import opened Wrappers

  datatype FormKind<D, I, F> =
    | CensusForm(censusDate: D, lostCousins: bool)
    | FactsForm(individual: Option<I>, family: Option<F>)
    | OtherForm(typeName: string)

  datatype Form<D, I, F> = Form(id: nat, kind: FormKind<D, I, F>, visible: bool)

  /** What happens to a replaced window: a visible one is closed, a hidden one disposed. */
  datatype Disposal = Close(id: nat) | Dispose(id: nat)

  /** The `Equals` methods the selection relies on. */
  datatype Equalities<!D, !I, !F> = Equalities(date: (D, D) -> bool, individual: (I, I) -> bool, family: (F, F) -> bool)

  /** `GetType()` equality. */
  predicate SameType<D, I, F>(a: FormKind<D, I, F>, b: FormKind<D, I, F>) {
    match a
    case CensusForm(_, _) => b.CensusForm?
    case FactsForm(_, _) => b.FactsForm?
    case OtherForm(n) => b.OtherForm? && b.typeName == n
  }

  /** `mine.Equals(theirs)`, where `None` is null; null never equals anything. */
  predicate NonNullEquals<T>(mine: Option<T>, theirs: Option<T>, eq: (T, T) -> bool) {
    mine.Some? && theirs.Some? && eq(mine.value, theirs.value)
  }

  /**
   How many times the open window `f` is listed for disposal when `form`
   opens: never itself or a window of another type; a census window once when
   date and Lost Cousins flag match; a facts window once for a matching
   individual and once more for a matching family; any other window once.
   */
  function Copies<D, I, F>(f: Form<D, I, F>, form: Form<D, I, F>, eqs: Equalities<D, I, F>): (r: seq<Form<D, I, F>>)
    ensures forall g :: g in r ==> g == f
    ensures f.id == form.id || !SameType(f.kind, form.kind) ==> r == []
    ensures f.id != form.id && f.kind.CensusForm? && form.kind.CensusForm? ==>
      |r| == (if eqs.date(f.kind.censusDate, form.kind.censusDate) && f.kind.lostCousins == form.kind.lostCousins then 1 else 0)
    ensures f.id != form.id && f.kind.FactsForm? && form.kind.FactsForm? ==>
      |r| == (if NonNullEquals(f.kind.individual, form.kind.individual, eqs.individual) then 1 else 0)
           + (if NonNullEquals(f.kind.family, form.kind.family, eqs.family) then 1 else 0)
    ensures f.id != form.id && form.kind.OtherForm? && SameType(f.kind, form.kind) ==> r == [f]
    ensures |r| <= 2
  {
    if f.id == form.id || !SameType(f.kind, form.kind) then []
    else match form.kind
      case CensusForm(date, lc) =>
        if eqs.date(f.kind.censusDate, date) && f.kind.lostCousins == lc then [f] else []
      case FactsForm(ind, fam) =>
        (if NonNullEquals(f.kind.individual, ind, eqs.individual) then [f] else [])
        + (if NonNullEquals(f.kind.family, fam, eqs.family) then [f] else [])
      case OtherForm(_) => [f]
  }

  /** The windows to dispose of, in the order the open windows are listed. */
  function ToDispose<D, I, F>(open: seq<Form<D, I, F>>, form: Form<D, I, F>, eqs: Equalities<D, I, F>): (r: seq<Form<D, I, F>>)
    ensures forall g :: g in r ==> g in open && g.id != form.id && SameType(g.kind, form.kind)
  {
    if open == [] then []
    else
      var r := Copies(open[0], form, eqs) + ToDispose(open[1..], form, eqs);
      assert forall g :: g in open[1..] ==> g in open;
      r
  }

  /** True when the window listed at `k` was already listed before it. */
  predicate ListedBefore<D, I, F>(listed: seq<Form<D, I, F>>, k: nat)
    requires k < |listed|
  {
    exists j :: 0 <= j < k && listed[j].id == listed[k].id
  }

  /**
   What `Visible` reads on the window listed at `k` when the loop reaches it.
   On its first listing that is its visibility before the loop. A later
   listing comes after the window was closed or disposed of: a hidden window
   is still hidden, and a closed one reads `visibleAfterClose`.
   */
  predicate VisibleWhenReached<D, I, F>(listed: seq<Form<D, I, F>>, k: nat, visibleAfterClose: bool)
    requires k < |listed|
  {
    listed[k].visible && (visibleAfterClose || !ListedBefore(listed, k))
  }

  /**
   Each listed window, in listing order, is closed if it is visible when
   the loop reaches it and disposed of otherwise.
   */
  function Disposals<D, I, F>(listed: seq<Form<D, I, F>>, visibleAfterClose: bool): (r: seq<Disposal>)
    ensures |r| == |listed|
    ensures forall k :: 0 <= k < |r| ==>
      r[k].id == listed[k].id && (r[k].Close? <==> VisibleWhenReached(listed, k, visibleAfterClose))
    ensures forall k :: 0 <= k < |r| && !ListedBefore(listed, k) ==> (r[k].Close? <==> listed[k].visible)
    ensures !visibleAfterClose ==> forall j, k :: 0 <= j < k < |r| && r[j].id == r[k].id ==> r[k].Dispose?
  {
    seq(|listed|, k requires 0 <= k < |listed| =>
      if VisibleWhenReached(listed, k, visibleAfterClose) then Close(listed[k].id) else Dispose(listed[k].id))
  }

  /** True when no action before position `k` concerns the window of action `k`. */
  predicate FirstOfId(r: seq<Disposal>, k: nat)
    requires k < |r|
  {
    forall j :: 0 <= j < k ==> r[j].id != r[k].id
  }

  /** An action is the first for its window exactly when its listing is the window's first. */
  lemma FirstListingIsFirstAction<D, I, F>(listed: seq<Form<D, I, F>>, visibleAfterClose: bool, k: nat)
    requires k < |listed|
    ensures ListedBefore(listed, k) <==> !FirstOfId(Disposals(listed, visibleAfterClose), k)
  {
    var r := Disposals(listed, visibleAfterClose);
    if ListedBefore(listed, k) {
      var j :| 0 <= j < k && listed[j].id == listed[k].id;
      assert r[j].id == r[k].id;
    }
  }

  /**
   `DisposeDuplicateForms`: what is done to each open window when `form`
   opens. `visibleAfterClose` is what `Visible` reads on a window that the
   loop has already closed.
   */
  function DisposeDuplicateForms<D, I, F>(open: seq<Form<D, I, F>>, form: Form<D, I, F>, eqs: Equalities<D, I, F>,
                                          visibleAfterClose: bool): (r: seq<Disposal>)
    ensures |r| == |ToDispose(open, form, eqs)|
    ensures forall k :: 0 <= k < |r| ==> ActsOnOpen(open, form, r, k, visibleAfterClose)
    ensures !visibleAfterClose ==> forall j, k :: 0 <= j < k < |r| && r[j].id == r[k].id ==> r[k].Dispose?
  {
    var listed := ToDispose(open, form, eqs);
    var r := Disposals(listed, visibleAfterClose);
    assert forall k :: 0 <= k < |r| ==> ActsOnOpen(open, form, r, k, visibleAfterClose) by {
      forall k | 0 <= k < |r|
        ensures ActsOnOpen(open, form, r, k, visibleAfterClose)
      {
        ActionSource(open, form, listed, visibleAfterClose, k);
      }
    }
    r
  }

  /**
   Action `k` concerns an open window of the new window's type, not the new
   window itself, and closes it exactly when it is visible when reached.
   */
  predicate ActsOnOpen<D, I, F>(open: seq<Form<D, I, F>>, form: Form<D, I, F>, r: seq<Disposal>, k: nat, visibleAfterClose: bool)
    requires k < |r|
  {
    && r[k].id != form.id
    && exists i :: 0 <= i < |open| && open[i].id == r[k].id && SameType(open[i].kind, form.kind)
                   && (r[k].Close? <==> open[i].visible && (visibleAfterClose || FirstOfId(r, k)))
  }

  /** Every action on listed windows acts on an open window as `ActsOnOpen` says. */
  lemma ActionSource<D, I, F>(open: seq<Form<D, I, F>>, form: Form<D, I, F>, listed: seq<Form<D, I, F>>,
                              visibleAfterClose: bool, k: nat)
    requires forall g :: g in listed ==> g in open && g.id != form.id && SameType(g.kind, form.kind)
    requires k < |listed|
    ensures ActsOnOpen(open, form, Disposals(listed, visibleAfterClose), k, visibleAfterClose)
  {
    var r := Disposals(listed, visibleAfterClose);
    FirstListingIsFirstAction(listed, visibleAfterClose, k);
    assert listed[k] in listed;
    var i :| 0 <= i < |open| && open[i] == listed[k];
    assert open[i].id == r[k].id;
  }

  /**
   A visible facts window whose individual and family both match the new
   window's is listed twice. The second `Visible` read follows its own
   close, so it is closed once and then disposed of, unless a closed window
   still reads as visible.
   */
  lemma DoubleListingClosedOnce<D, I, F>(f: Form<D, I, F>, form: Form<D, I, F>, eqs: Equalities<D, I, F>, visibleAfterClose: bool)
    requires f.id != form.id && f.visible && f.kind.FactsForm? && form.kind.FactsForm?
    requires NonNullEquals(f.kind.individual, form.kind.individual, eqs.individual)
    requires NonNullEquals(f.kind.family, form.kind.family, eqs.family)
    ensures DisposeDuplicateForms([f], form, eqs, visibleAfterClose)
         == [Close(f.id), if visibleAfterClose then Close(f.id) else Dispose(f.id)]
  {
    assert ToDispose([f], form, eqs) == [f, f];
    assert [f, f][0].id == [f, f][1].id;
    assert ListedBefore([f, f], 1);
  }

  /** Open windows have distinct identities. */
  predicate DistinctIds<D, I, F>(open: seq<Form<D, I, F>>) {
    forall i, j :: 0 <= i < j < |open| ==> open[i].id != open[j].id
  }

  /**
   Every open window is listed exactly as many times as its own selection
   rule says, whatever the other open windows are.
   */
  lemma {:induction false} ListedCount<D, I, F>(open: seq<Form<D, I, F>>, form: Form<D, I, F>, eqs: Equalities<D, I, F>, k: nat)
    requires DistinctIds(open) && k < |open|
    ensures multiset(ToDispose(open, form, eqs))[open[k]] == |Copies(open[k], form, eqs)|
  {
    var f := open[k];
    var head := Copies(open[0], form, eqs);
    var tail := ToDispose(open[1..], form, eqs);
    assert ToDispose(open, form, eqs) == head + tail;
    assert multiset(head + tail)[f] == multiset(head)[f] + multiset(tail)[f];
    if k == 0 {
      NotListedElsewhere(open[1..], form, eqs, f);
      CopiesCount(open[0], form, eqs, f);
    } else {
      assert DistinctIds(open[1..]) by {
        forall i, j | 0 <= i < j < |open[1..]|
          ensures open[1..][i].id != open[1..][j].id
        {
          assert open[1..][i] == open[i + 1] && open[1..][j] == open[j + 1];
        }
      }
      assert open[1..][k - 1] == f;
      ListedCount(open[1..], form, eqs, k - 1);
      CopiesCount(open[0], form, eqs, f);
    }
  }

  /** The copies of a window count only that window. */
  lemma CopiesCount<D, I, F>(g: Form<D, I, F>, form: Form<D, I, F>, eqs: Equalities<D, I, F>, f: Form<D, I, F>)
    ensures multiset(Copies(g, form, eqs))[f] == if f == g then |Copies(g, form, eqs)| else 0
  {
    var c := Copies(g, form, eqs);
    if f != g {
      assert f !in c;
    } else {
      assert forall x :: x in c ==> x == f;
      assert c == [] || c == [f] || c == [f, f];
    }
  }

  /** A window whose identity is not among the open ones is never listed. */
  lemma NotListedElsewhere<D, I, F>(open: seq<Form<D, I, F>>, form: Form<D, I, F>, eqs: Equalities<D, I, F>, f: Form<D, I, F>)
    requires forall i :: 0 <= i < |open| ==> open[i].id != f.id
    ensures multiset(ToDispose(open, form, eqs))[f] == 0
  {
  }

  /** Opening a window of a type nobody has open closes nothing. */
  lemma NewTypeClosesNothing<D, I, F>(open: seq<Form<D, I, F>>, form: Form<D, I, F>, eqs: Equalities<D, I, F>,
                                      visibleAfterClose: bool)
    requires forall i :: 0 <= i < |open| ==> !SameType(open[i].kind, form.kind)
    ensures DisposeDuplicateForms(open, form, eqs, visibleAfterClose) == []
  {
    if open != [] {
      NewTypeClosesNothing(open[1..], form, eqs, visibleAfterClose);
    }
  }
}

=== FILE: non_duplicates.dfy ===
/**
 The "not a duplicate" exclusion list and the grid click that maintains it.

 A candidate pair `P` is compared only through `eq(stored, probe)`, standing
 for the pair type's own `Equals` as `List.Contains` and `List.Remove` apply
 it: a stored element against the probe. Nothing is assumed of `eq`, not
 even symmetry or reflexivity.
 */
module NonDuplicates {

  /** A row of the duplicates grid: a candidate pair and its "ignore" check box. */
  datatype DuplicateRow<P> = DuplicateRow(pair: P, ignored: bool)

  /** A click on a grid cell; a negative row index is the header row. */
  datatype CellClick = CellClick(row: int, column: int)

  /** The grid rows and the exclusion list, as one click leaves them. */
  datatype Ignores<P> = Ignores(rows: seq<DuplicateRow<P>>, nonDuplicates: seq<P>)

  /** `List.Contains`: some stored element equals the probe. */
  predicate Contains<P>(list: seq<P>, p: P, eq: (P, P) -> bool) {
    exists i :: 0 <= i < |list| && eq(list[i], p)
  }

  /** Index of the first stored element equal to the probe. */
  function FirstMatch<P>(list: seq<P>, p: P, eq: (P, P) -> bool): (i: nat)
    requires Contains(list, p, eq)
    ensures i < |list| && eq(list[i], p)
    ensures forall j :: 0 <= j < i ==> !eq(list[j], p)
  {
    if eq(list[0], p) then 0
    else
      assert Contains(list[1..], p, eq) by {
        var k :| 0 <= k < |list| && eq(list[k], p);
        assert list[1..][k - 1] == list[k];
      }
      1 + FirstMatch(list[1..], p, eq)
  }

  /** `List.Remove`: drops the first stored element equal to the probe, if any. */
  function Remove<P>(list: seq<P>, p: P, eq: (P, P) -> bool): (r: seq<P>)
    ensures !Contains(list, p, eq) ==> r == list
    ensures Contains(list, p, eq) ==>
      var i := FirstMatch(list, p, eq);
      r == list[..i] + list[i + 1..]
  {
    if list == [] then []
    else if eq(list[0], p) then list[1..]
    else
      var rest := Remove(list[1..], p, eq);
      ContainsTail(list, p, eq);
      assert Contains(list, p, eq) ==>
        var i := FirstMatch(list, p, eq);
        [list[0]] + rest == list[..i] + list[i + 1..] by {
        if Contains(list, p, eq) {
          var i := FirstMatch(list, p, eq);
          assert list[1..][..i - 1] == list[1..i] && list[1..][i..] == list[i + 1..];
          assert list[..i] == [list[0]] + list[1..i];
        }
      }
      [list[0]] + rest
  }

  /** Past a first element that does not match, the tail holds a match exactly when the list does. */
  lemma ContainsTail<P>(list: seq<P>, p: P, eq: (P, P) -> bool)
    requires list != [] && !eq(list[0], p)
    ensures Contains(list, p, eq) <==> Contains(list[1..], p, eq)
  {
    if Contains(list, p, eq) {
      var k :| 0 <= k < |list| && eq(list[k], p);
      assert list[1..][k - 1] == list[k];
    }
    if Contains(list[1..], p, eq) {
      var k :| 0 <= k < |list[1..]| && eq(list[1..][k], p);
      assert list[k + 1] == list[1..][k];
    }
  }

  /** No stored element equals a later one: what add-if-absent maintains. */
  ghost predicate DuplicateFree<P>(list: seq<P>, eq: (P, P) -> bool) {
    forall i, j :: 0 <= i < j < |list| ==> !eq(list[i], list[j])
  }

  /** The click handler acts only on a data cell of the first column, and not while a search runs. */
  predicate ClickActs(click: CellClick, searching: bool) {
    click.row >= 0 && click.column == 0 && !searching
  }

  /**
   Clicking a cell of the duplicates grid. On the check-box column of a data
   row, while no search is running, the row's "ignore" flag flips; a pair
   now ignored is added to the exclusion list unless an equal pair is there
   already, and a pair no longer ignored has its first equal entry removed.
   */
  function ToggleIgnore<P>(rows: seq<DuplicateRow<P>>, nonDuplicates: seq<P>, click: CellClick,
                           searching: bool, eq: (P, P) -> bool): (r: Ignores<P>)
    requires click.row < |rows|
    ensures !ClickActs(click, searching) ==> r == Ignores(rows, nonDuplicates)
    ensures ClickActs(click, searching) ==>
      var row := rows[click.row];
      && |r.rows| == |rows|
      && r.rows[click.row] == DuplicateRow(row.pair, !row.ignored)
      && (forall k :: 0 <= k < |rows| && k != click.row ==> r.rows[k] == rows[k])
      && (!row.ignored && Contains(nonDuplicates, row.pair, eq) ==> r.nonDuplicates == nonDuplicates)
      && (!row.ignored && !Contains(nonDuplicates, row.pair, eq) ==> r.nonDuplicates == nonDuplicates + [row.pair])
      && (row.ignored ==> |r.nonDuplicates| == |nonDuplicates| - (if Contains(nonDuplicates, row.pair, eq) then 1 else 0))
      && (row.ignored && !Contains(nonDuplicates, row.pair, eq) ==> r.nonDuplicates == nonDuplicates)
      && (row.ignored && Contains(nonDuplicates, row.pair, eq) ==>
            var i := FirstMatch(nonDuplicates, row.pair, eq);
            r.nonDuplicates == nonDuplicates[..i] + nonDuplicates[i + 1..])
  {
    if !ClickActs(click, searching) then Ignores(rows, nonDuplicates)
    else
      var row := rows[click.row];
      var flipped := DuplicateRow(row.pair, !row.ignored);
      var list :=
        if flipped.ignored then
          (if Contains(nonDuplicates, row.pair, eq) then nonDuplicates else nonDuplicates + [row.pair])
        else Remove(nonDuplicates, row.pair, eq);
      Ignores(rows[click.row := flipped], list)
  }

  /** Removing an element keeps a duplicate-free list duplicate-free. */
  lemma RemoveKeepsDuplicateFree<P>(list: seq<P>, p: P, eq: (P, P) -> bool)
    requires DuplicateFree(list, eq)
    ensures DuplicateFree(Remove(list, p, eq), eq)
  {
    if Contains(list, p, eq) {
      var i := FirstMatch(list, p, eq);
      var r := Remove(list, p, eq);
      assert r == list[..i] + list[i + 1..];
      forall a, b | 0 <= a < b < |r|
        ensures !eq(r[a], r[b])
      {
        var a' := if a < i then a else a + 1;
        var b' := if b < i then b else b + 1;
        RemovedIndex(list, i, a);
        RemovedIndex(list, i, b);
        assert a' < b';
      }
    }
  }

  /** Position `a` of a list with index `i` cut out holds the original's element at `a`, or at `a + 1` from `i` on. */
  lemma RemovedIndex<P>(list: seq<P>, i: nat, a: nat)
    requires i < |list| && a < |list| - 1
    ensures (list[..i] + list[i + 1..])[a] == list[if a < i then a else a + 1]
  {
    if a >= i {
      assert (list[..i] + list[i + 1..])[a] == list[i + 1..][a - i];
    }
  }

  /** A click keeps a duplicate-free exclusion list duplicate-free. */
  lemma ToggleKeepsDuplicateFree<P>(rows: seq<DuplicateRow<P>>, nonDuplicates: seq<P>, click: CellClick,
                                    searching: bool, eq: (P, P) -> bool)
    requires click.row < |rows|
    requires DuplicateFree(nonDuplicates, eq)
    ensures DuplicateFree(ToggleIgnore(rows, nonDuplicates, click, searching, eq).nonDuplicates, eq)
  {
    if ClickActs(click, searching) {
      var row := rows[click.row];
      if row.ignored {
        RemoveKeepsDuplicateFree(nonDuplicates, row.pair, eq);
      } else if !Contains(nonDuplicates, row.pair, eq) {
        var r := nonDuplicates + [row.pair];
        forall a, b | 0 <= a < b < |r|
          ensures !eq(r[a], r[b])
        {
          if b == |nonDuplicates| {
            assert r[a] == nonDuplicates[a];
          }
        }
      }
    }
  }

  /**
   Ignoring a pair that was not excluded and then un-ignoring it restores the
   grid and the exclusion list, provided the pair equals itself.
   */
  lemma ToggleTwiceRestores<P>(rows: seq<DuplicateRow<P>>, nonDuplicates: seq<P>, click: CellClick,
                               eq: (P, P) -> bool)
    requires 0 <= click.row < |rows| && click.column == 0
    requires !rows[click.row].ignored
    requires !Contains(nonDuplicates, rows[click.row].pair, eq)
    requires eq(rows[click.row].pair, rows[click.row].pair)
    ensures var once := ToggleIgnore(rows, nonDuplicates, click, false, eq);
            ToggleIgnore(once.rows, once.nonDuplicates, click, false, eq) == Ignores(rows, nonDuplicates)
  {
    var p := rows[click.row].pair;
    var once := ToggleIgnore(rows, nonDuplicates, click, false, eq);
    assert once.nonDuplicates == nonDuplicates + [p];
    assert Contains(once.nonDuplicates, p, eq) by {
      assert once.nonDuplicates[|nonDuplicates|] == p;
    }
    var i := FirstMatch(once.nonDuplicates, p, eq);
    assert forall j :: 0 <= j < |nonDuplicates| ==> once.nonDuplicates[j] == nonDuplicates[j];
    assert once.nonDuplicates[..i] == nonDuplicates;
    var twice := ToggleIgnore(once.rows, once.nonDuplicates, click, false, eq);
    assert twice.rows == rows;
  }
}

=== FILE: recent_files.dfy ===
/**
 The recent-files (most recently used) list of the main window.

 The list is persisted as a string collection of five slots; a slot may hold
 a null entry (`None`). `fileExists` stands for `File.Exists`, which is false for
 a null path.
 */
module RecentFiles {
  import opened Wrappers

  /** Number of slots in the persisted list and in the Recent menu. */
  const Slots: nat := 5

  /** One entry of the persisted collection; `None` is a null string. */
  type Slot = Option<string>

  /** A Recent menu item: hidden, or shown as "<number>. <name>" and tagged with `name`. */
  datatype MenuEntry = Hidden | Shown(number: nat, name: string)

  /**
   The outcome of rebuilding the menu: the slots as persisted afterwards,
   one entry per slot, and whether any entry is shown. `anyShown` drives the
   separator and the "clear list" item's visibility and the Recent menu's
   enabled state alike.
   */
  datatype RecentMenu = RecentMenu(slots: seq<Slot>, entries: seq<MenuEntry>, anyShown: bool)

  /** True when the slot names a file that exists (a null path never does). */
  predicate SlotExists(s: Slot, fileExists: string -> bool) {
    s.Some? && fileExists(s.value)
  }

  /** True when the Recent menu shows the slot: non-null, non-empty, and existing. */
  predicate Visible(s: Slot, fileExists: string -> bool) {
    s.Some? && |s.value| > 0 && fileExists(s.value)
  }

  /** The reset list: five empty strings. */
  function ClearRecentList(): (r: seq<Slot>)
    ensures |r| == Slots
    ensures forall i :: 0 <= i < |r| ==> r[i] == Some("")
  {
    seq(Slots, _ => Some(""))
  }

  /**
   The old entries that survive a new file being opened: those that are not
   the new file name and that exist, in their original order and with
   repetitions kept.
   */
  function Survivors(prev: seq<Slot>, filename: string, fileExists: string -> bool): (r: seq<string>)
    ensures |r| <= |prev|
    ensures forall x :: x in r ==> x != filename && fileExists(x) && Some(x) in prev
  {
    if prev == [] then []
    else
      var rest := Survivors(prev[1..], filename, fileExists);
      if prev[0] != Some(filename) && SlotExists(prev[0], fileExists) then [prev[0].value] + rest else rest
  }

  /** `n` null slots. */
  function Nulls(n: nat): (r: seq<Slot>)
    ensures |r| == n && forall i :: 0 <= i < n ==> r[i] == None
  {
    seq(n, _ => None)
  }

  /** The names as non-null slots. */
  function AsSlots(names: seq<string>): (r: seq<Slot>)
    ensures |r| == |names| && forall i :: 0 <= i < |r| ==> r[i] == Some(names[i])
  {
    seq(|names|, i requires 0 <= i < |names| => Some(names[i]))
  }

  /** The old entries carried over: null collection means none. */
  function Carried(settings: Option<seq<Slot>>, filename: string, fileExists: string -> bool): seq<string> {
    match settings
    case None => []
    case Some(prev) => Survivors(prev, filename, fileExists)
  }

  /**
   The persisted list after opening `filename`: the new name first, then at
   most four surviving old entries in their old order, then null slots.
   */
  function AddFileToRecentList(settings: Option<seq<Slot>>, filename: string, fileExists: string -> bool): (r: seq<Slot>)
    ensures |r| == Slots
    ensures r[0] == Some(filename)
    ensures forall i :: 1 <= i < Slots ==> r[i] != Some(filename)
    ensures forall i :: 1 <= i < Slots && r[i].Some? ==> SlotExists(r[i], fileExists) && settings.Some? && r[i] in settings.value
  {
    Layout(filename, Kept(settings, filename, fileExists))
  }

  /** The carried entries that fit: the first four. */
  function Kept(settings: Option<seq<Slot>>, filename: string, fileExists: string -> bool): (r: seq<string>)
    ensures |r| <= Slots - 1
    ensures r <= Carried(settings, filename, fileExists)
    ensures |r| < Slots - 1 ==> r == Carried(settings, filename, fileExists)
  {
    var kept := Carried(settings, filename, fileExists);
    if |kept| < Slots - 1 then kept else kept[..Slots - 1]
  }

  /** The new name, then the kept names, then null slots up to five. */
  function Layout(filename: string, kept: seq<string>): (r: seq<Slot>)
    requires |kept| <= Slots - 1
    ensures |r| == Slots && r[0] == Some(filename) && r[1..] == AsSlots(kept) + Nulls(Slots - 1 - |kept|)
  {
    [Some(filename)] + AsSlots(kept) + Nulls(Slots - 1 - |kept|)
  }

  /**
   The same update in the steps `MainForm.AddFileToRecentList` takes: a
   five-slot array of nulls, the old entries carried over by the loop when
   the collection is not null, then the new name in slot 0.
   */
  method AddFileToRecentListLoop(settings: Option<seq<Slot>>, filename: string, fileExists: string -> bool)
    returns (recent: seq<Slot>)
    ensures |recent| == Slots
    ensures recent[0] == Some(filename)
    ensures forall i :: 1 <= i < Slots ==>
      var kept := Carried(settings, filename, fileExists);
      if i - 1 < |kept| then recent[i] == Some(kept[i - 1]) else recent[i] == None
    ensures recent == AddFileToRecentList(settings, filename, fileExists)
  {
    recent := Nulls(Slots);
    if settings.Some? {
      recent := CarryOver(settings.value, filename, fileExists);
    }
    recent := recent[0 := Some(filename)];
    SlotwiseIsUpdate(settings, filename, fileExists, recent);
  }

  /**
   `MainForm`'s loop over the old collection: a write cursor `j` starting
   at slot 1, advanced for each surviving entry, the loop leaving as soon as
   all five slots are taken. Slot 0 is left null.
   */
  method CarryOver(prev: seq<Slot>, filename: string, fileExists: string -> bool) returns (recent: seq<Slot>)
    ensures LaidOut(recent, Survivors(prev, filename, fileExists)) && recent[0] == None
  {
    recent := Nulls(Slots);
    var j := 1;
    var i := 0;
    ghost var laid: seq<string> := [];
    while i < |prev|
      invariant 0 <= i <= |prev|
      invariant laid == Survivors(prev[..i], filename, fileExists)
      invariant j == |laid| + 1 < Slots
      invariant LaidOut(recent, laid) && recent[0] == None
    {
      SurvivorsStep(prev, i, filename, fileExists);
      if prev[i] != Some(filename) && SlotExists(prev[i], fileExists) {
        LayNext(recent, laid, prev[i].value);
        recent := recent[j := prev[i]];
        j := j + 1;
        laid := laid + [prev[i].value];
        if j == Slots {
          SurvivorsSplit(prev, i + 1, filename, fileExists);
          LaidOutFull(recent, laid, Survivors(prev[i + 1..], filename, fileExists));
          return;
        }
      }
      i := i + 1;
    }
    assert prev[..i] == prev;
  }

  /** The survivors of the first `i + 1` entries extend those of the first `i` by entry `i` when it survives. */
  lemma SurvivorsStep(prev: seq<Slot>, i: nat, filename: string, fileExists: string -> bool)
    requires i < |prev|
    ensures Survivors(prev[..i + 1], filename, fileExists) == Survivors(prev[..i], filename, fileExists)
      + (if prev[i] != Some(filename) && SlotExists(prev[i], fileExists) then [prev[i].value] else [])
  {
    SurvivorsAppendOne(prev[..i], prev[i], filename, fileExists);
    assert prev[..i + 1] == prev[..i] + [prev[i]];
  }

  /** Slots 1 to 4 hold `names` in order, then nulls. */
  predicate LaidOut(recent: seq<Slot>, names: seq<string>) {
    |recent| == Slots && forall t :: 1 <= t < Slots ==> recent[t] == (if t - 1 < |names| then Some(names[t - 1]) else None)
  }

  /** Writing the next name at the cursor lays out one more name. */
  lemma LayNext(recent: seq<Slot>, names: seq<string>, name: string)
    requires LaidOut(recent, names) && |names| < Slots - 1
    ensures LaidOut(recent[|names| + 1 := Some(name)], names + [name])
  {
  }

  /** Once the four slots are full, further names change nothing. */
  lemma LaidOutFull(recent: seq<Slot>, names: seq<string>, more: seq<string>)
    requires LaidOut(recent, names) && |names| == Slots - 1
    ensures LaidOut(recent, names + more)
  {
  }

  /** Survivors distributes over concatenation. */
  lemma {:induction false} SurvivorsAppend(a: seq<Slot>, b: seq<Slot>, filename: string, fileExists: string -> bool)
    ensures Survivors(a + b, filename, fileExists) == Survivors(a, filename, fileExists) + Survivors(b, filename, fileExists)
  {
    if a == [] {
      assert a + b == b;
    } else {
      assert (a + b)[1..] == a[1..] + b;
      SurvivorsAppend(a[1..], b, filename, fileExists);
    }
  }

  /** Survivors of a list grown by one slot. */
  lemma SurvivorsAppendOne(a: seq<Slot>, s: Slot, filename: string, fileExists: string -> bool)
    ensures Survivors(a + [s], filename, fileExists)
         == Survivors(a, filename, fileExists) + (if s != Some(filename) && SlotExists(s, fileExists) then [s.value] else [])
  {
    SurvivorsAppend(a, [s], filename, fileExists);
  }

  /** Survivors of a list split at `i`. */
  lemma SurvivorsSplit(prev: seq<Slot>, i: nat, filename: string, fileExists: string -> bool)
    requires i <= |prev|
    ensures Survivors(prev, filename, fileExists) == Survivors(prev[..i], filename, fileExists) + Survivors(prev[i..], filename, fileExists)
  {
    assert prev == prev[..i] + prev[i..];
    SurvivorsAppend(prev[..i], prev[i..], filename, fileExists);
  }

  /** A list laid out slot by slot as the update prescribes is the update's result. */
  lemma SlotwiseIsUpdate(settings: Option<seq<Slot>>, filename: string, fileExists: string -> bool, recent: seq<Slot>)
    requires LaidOut(recent, Carried(settings, filename, fileExists)) && recent[0] == Some(filename)
    ensures recent == AddFileToRecentList(settings, filename, fileExists)
  {
  }

  /** Survivors of a list that already went through the update, for the same file. */
  lemma SurvivorsOfKept(names: seq<string>, filename: string, fileExists: string -> bool, n: nat)
    requires forall x :: x in names ==> x != filename && fileExists(x)
    ensures Survivors(AsSlots(names) + Nulls(n), filename, fileExists) == names
  {
    SurvivorsAppend(AsSlots(names), Nulls(n), filename, fileExists);
    NullsSurviveNone(n, filename, fileExists);
    assert forall i :: 0 <= i < |names| ==> names[i] in names;
    KeptNamesSurvive(names, filename, fileExists);
  }

  /** Names that differ from the file and exist all survive, in order. */
  lemma {:induction false} KeptNamesSurvive(names: seq<string>, filename: string, fileExists: string -> bool)
    requires forall i :: 0 <= i < |names| ==> names[i] != filename && fileExists(names[i])
    ensures Survivors(AsSlots(names), filename, fileExists) == names
  {
    if names != [] {
      var s := AsSlots(names);
      assert s[0] == Some(names[0]) && s[1..] == AsSlots(names[1..]);
      assert s[0] != Some(filename) && SlotExists(s[0], fileExists);
      assert forall i :: 0 <= i < |names[1..]| ==> names[1..][i] == names[i + 1];
      KeptNamesSurvive(names[1..], filename, fileExists);
      assert Survivors(s, filename, fileExists) == [names[0]] + Survivors(s[1..], filename, fileExists);
      assert names == [names[0]] + names[1..];
    }
  }

  /** No null slot survives. */
  lemma {:induction false} NullsSurviveNone(n: nat, filename: string, fileExists: string -> bool)
    ensures Survivors(Nulls(n), filename, fileExists) == []
  {
    if n > 0 {
      assert Nulls(n)[1..] == Nulls(n - 1);
      NullsSurviveNone(n - 1, filename, fileExists);
    }
  }

  /** Opening the same file twice in a row leaves the list as after the first time. */
  lemma AddFileIdempotent(settings: Option<seq<Slot>>, filename: string, fileExists: string -> bool)
    ensures var once := AddFileToRecentList(settings, filename, fileExists);
            AddFileToRecentList(Some(once), filename, fileExists) == once
  {
    var once := AddFileToRecentList(settings, filename, fileExists);
    var kept := Kept(settings, filename, fileExists);
    assert forall x :: x in kept ==> x in Carried(settings, filename, fileExists);
    LayoutSurvivors(filename, kept, fileExists);
    assert Carried(Some(once), filename, fileExists) == kept;
  }

  /** Filtering a laid-out list for its own file gives back the kept names. */
  lemma LayoutSurvivors(filename: string, kept: seq<string>, fileExists: string -> bool)
    requires |kept| <= Slots - 1
    requires forall x :: x in kept ==> x != filename && fileExists(x)
    ensures Survivors(Layout(filename, kept), filename, fileExists) == kept
  {
    var l := Layout(filename, kept);
    assert Survivors(l, filename, fileExists) == Survivors(l[1..], filename, fileExists);
    SurvivorsOfKept(kept, filename, fileExists, Slots - 1 - |kept|);
  }

  /** Each name survives as many times as it occurs in the old list, unless it is the new file or no longer exists. */
  lemma {:induction false} SurvivorsMultiplicity(prev: seq<Slot>, filename: string, fileExists: string -> bool, x: string)
    ensures multiset(Survivors(prev, filename, fileExists))[x]
         == if x != filename && fileExists(x) then multiset(prev)[Some(x)] else 0
    decreases |prev|
  {
    if prev != [] {
      SurvivorsMultiplicity(prev[1..], filename, fileExists, x);
      assert prev == [prev[0]] + prev[1..];
    }
  }

  /** A name occurs as often among its slots as among the names. */
  lemma {:induction false} AsSlotsMultiplicity(names: seq<string>, x: string)
    ensures multiset(AsSlots(names))[Some(x)] == multiset(names)[x]
    decreases |names|
  {
    if names != [] {
      AsSlotsMultiplicity(names[1..], x);
      AsSlotsTail(names);
      HeadCount(AsSlots(names), Some(x));
      HeadCount(names, x);
    }
  }

  /** Dropping the first name drops the first slot. */
  lemma AsSlotsTail(names: seq<string>)
    requires names != []
    ensures AsSlots(names)[1..] == AsSlots(names[1..])
  {
  }

  /** Occurrences in a non-empty list: those of its head, plus those in its tail. */
  lemma HeadCount<T>(s: seq<T>, y: T)
    requires s != []
    ensures multiset(s)[y] == (if s[0] == y then 1 else 0) + multiset(s[1..])[y]
  {
    assert s == [s[0]] + s[1..];
  }

  /**
   Repeated old entries are not collapsed into one: when all survivors fit,
   every surviving name occurs in the new list as often as in the old one,
   and the new file exactly once.
   */
  lemma RepeatsKept(prev: seq<Slot>, filename: string, fileExists: string -> bool, x: string)
    requires |Survivors(prev, filename, fileExists)| < Slots - 1
    ensures multiset(AddFileToRecentList(Some(prev), filename, fileExists))[Some(x)]
         == if x == filename then 1 else if fileExists(x) then multiset(prev)[Some(x)] else 0
  {
    var kept := Kept(Some(prev), filename, fileExists);
    var nulls := Nulls(Slots - 1 - |kept|);
    assert AddFileToRecentList(Some(prev), filename, fileExists) == [Some(filename)] + AsSlots(kept) + nulls;
    assert Some(x) !in nulls;
    SurvivorsMultiplicity(prev, filename, fileExists, x);
    AsSlotsMultiplicity(kept, x);
  }

  /** Visible slots among `s`. */
  function VisibleCount(s: seq<Slot>, fileExists: string -> bool): (n: nat)
    ensures n <= |s|
  {
    if s == [] then 0
    else VisibleCount(s[..|s| - 1], fileExists) + (if Visible(s[|s| - 1], fileExists) then 1 else 0)
  }

  /** Some slot is visible exactly when the visible count is positive. */
  lemma {:induction false} AnyVisibleIffCount(s: seq<Slot>, fileExists: string -> bool)
    ensures VisibleCount(s, fileExists) > 0 <==> exists i :: 0 <= i < |s| && Visible(s[i], fileExists)
  {
    if s != [] {
      var n := |s| - 1;
      AnyVisibleIffCount(s[..n], fileExists);
      if VisibleCount(s[..n], fileExists) > 0 {
        var i :| 0 <= i < n && Visible(s[..n][i], fileExists);
        assert Visible(s[i], fileExists);
      }
    }
  }

  /**
   The menu numbering rule: entry `i` is shown exactly when slot `i` is
   visible, shows that slot's name, and is numbered one more than the
   visible slots before it.
   */
  ghost predicate WellNumbered(slots: seq<Slot>, entries: seq<MenuEntry>, fileExists: string -> bool) {
    && |entries| == |slots|
    && (forall i :: 0 <= i < |slots| ==> (entries[i].Shown? <==> Visible(slots[i], fileExists)))
    && (forall i :: 0 <= i < |slots| && entries[i].Shown? ==>
          entries[i].name == slots[i].value && entries[i].number == VisibleCount(slots[..i], fileExists) + 1)
  }

  /**
   The slots `BuildRecentList` numbers, as written. A collection of the
   wrong length is reset to five empty strings; a null one passes the null
   test into `ClearRecentList`, whose `Clear()` call dereferences it and
   throws, shown as `None`.
   */
  function SlotsToShowAsWritten(settings: Option<seq<Slot>>): (r: Option<seq<Slot>>)
    ensures r.None? <==> settings.None?
    ensures r.Some? ==> |r.value| == Slots
    ensures settings.Some? && |settings.value| == Slots ==> r == settings
    ensures settings.Some? && |settings.value| != Slots ==> r == Some(ClearRecentList())
  {
    match settings
    case None => None
    case Some(prev) => if |prev| == Slots then settings else Some(ClearRecentList())
  }

  /** The slots to number with the null test doing what it is there for: a null collection is reset too. */
  function SlotsToShow(settings: Option<seq<Slot>>): (r: seq<Slot>)
    ensures |r| == Slots
    ensures settings.Some? && |settings.value| == Slots ==> r == settings.value
    ensures settings.None? || |settings.value| != Slots ==> r == ClearRecentList()
  {
    if settings.Some? && |settings.value| == Slots then settings.value else ClearRecentList()
  }

  /** The two agree on every non-null collection. */
  lemma SlotsAgreeUnlessNull(settings: Option<seq<Slot>>)
    requires settings.Some?
    ensures SlotsToShowAsWritten(settings) == Some(SlotsToShow(settings))
  {
  }

  /** As written, a null collection throws where the null test meant to reset it. */
  lemma NullListThrowsAsWritten()
    ensures SlotsToShowAsWritten(None).None?
    ensures SlotsToShow(None) == ClearRecentList()
  {
  }

  /** A rebuild as written: the exception on a null collection, or the menu. */
  datatype Rebuild = NullReference | Built(menu: RecentMenu)

  /** `BuildRecentList` as written: it throws on a null collection and otherwise numbers the slots. */
  method BuildRecentListAsWritten(settings: Option<seq<Slot>>, fileExists: string -> bool) returns (b: Rebuild)
    ensures b.NullReference? <==> settings.None?
    ensures b.Built? ==> SlotsToShowAsWritten(settings) == Some(b.menu.slots)
    ensures b.Built? ==> WellNumbered(b.menu.slots, b.menu.entries, fileExists)
    ensures b.Built? ==> (b.menu.anyShown <==> exists i :: 0 <= i < Slots && Visible(b.menu.slots[i], fileExists))
  {
    var slots := SlotsToShowAsWritten(settings);
    if slots.None? {
      b := NullReference;
    } else {
      var entries, added := NumberEntries(slots.value, fileExists);
      b := Built(RecentMenu(slots.value, entries, added));
    }
  }

  /**
   Rebuilding the Recent menu, with a null collection reset like one of the
   wrong length: every visible slot is then shown and numbered in slot
   order, and the menu is enabled when anything is shown.
   */
  method BuildRecentList(settings: Option<seq<Slot>>, fileExists: string -> bool) returns (m: RecentMenu)
    ensures m.slots == SlotsToShow(settings)
    ensures |m.entries| == Slots
    ensures WellNumbered(m.slots, m.entries, fileExists)
    ensures m.anyShown <==> exists i :: 0 <= i < Slots && Visible(m.slots[i], fileExists)
  {
    var slots := SlotsToShow(settings);
    var entries, added := NumberEntries(slots, fileExists);
    m := RecentMenu(slots, entries, added);
  }

  /** The numbering loop over the slots, and whether any entry was shown. */
  method NumberEntries(slots: seq<Slot>, fileExists: string -> bool) returns (entries: seq<MenuEntry>, added: bool)
    ensures WellNumbered(slots, entries, fileExists)
    ensures added <==> exists i :: 0 <= i < |slots| && Visible(slots[i], fileExists)
  {
    added := false;
    var count := 0;
    entries := [];
    for i := 0 to |slots|
      invariant |entries| == i
      invariant count == VisibleCount(slots[..i], fileExists)
      invariant added <==> count > 0
      invariant forall t :: 0 <= t < i ==> (entries[t].Shown? <==> Visible(slots[t], fileExists))
      invariant forall t :: 0 <= t < i && entries[t].Shown? ==>
        entries[t].name == slots[t].value && entries[t].number == VisibleCount(slots[..t], fileExists) + 1
    {
      VisibleCountStep(slots, i, fileExists);
      var name := slots[i];
      if name.Some? && |name.value| > 0 && fileExists(name.value) {
        added := true;
        count := count + 1;
        entries := entries + [Shown(count, name.value)];
      } else {
        entries := entries + [Hidden];
      }
    }
    assert slots[..|slots|] == slots;
    AnyVisibleIffCount(slots, fileExists);
  }

  /** The visible count of the first `i + 1` slots adds slot `i` when it is visible. */
  lemma VisibleCountStep(slots: seq<Slot>, i: nat, fileExists: string -> bool)
    requires i < |slots|
    ensures VisibleCount(slots[..i + 1], fileExists) == VisibleCount(slots[..i], fileExists) + (if Visible(slots[i], fileExists) then 1 else 0)
  {
    assert slots[..i + 1][..i] == slots[..i];
  }

  /** The shown numbers in slot order. */
  function ShownNumbers(entries: seq<MenuEntry>): seq<nat> {
    if entries == [] then []
    else
      var last := entries[|entries| - 1];
      ShownNumbers(entries[..|entries| - 1]) + (if last.Shown? then [last.number] else [])
  }

  /** The numbers 1, 2, ..., k. */
  function OneTo(k: nat): (r: seq<nat>)
    ensures |r| == k && forall i :: 0 <= i < k ==> r[i] == i + 1
  {
    seq(k, i => i + 1)
  }

  /** Visible entries are numbered 1..k consecutively, k being the number of visible slots. */
  lemma {:induction false} NumberingConsecutive(slots: seq<Slot>, entries: seq<MenuEntry>, fileExists: string -> bool)
    requires WellNumbered(slots, entries, fileExists)
    ensures ShownNumbers(entries) == OneTo(VisibleCount(slots, fileExists))
  {
    if slots != [] {
      var n := |slots| - 1;
      assert forall i :: 0 <= i < n ==> slots[..n][..i] == slots[..i];
      assert WellNumbered(slots[..n], entries[..n], fileExists);
      NumberingConsecutive(slots[..n], entries[..n], fileExists);
    }
  }

  /** A cleared list shows nothing, so the Recent menu is disabled. */
  lemma ClearedMenuDisabled(fileExists: string -> bool)
    ensures forall i :: 0 <= i < Slots ==> !Visible(ClearRecentList()[i], fileExists)
  {
  }

  /** After opening an existing file, the Recent menu shows it first, as number 1. */
  lemma NewFileShownFirst(settings: Option<seq<Slot>>, filename: string, fileExists: string -> bool, m: RecentMenu)
    requires |filename| > 0 && fileExists(filename)
    requires m.slots == AddFileToRecentList(settings, filename, fileExists)
    requires WellNumbered(m.slots, m.entries, fileExists)
    ensures m.entries[0] == Shown(1, filename)
  {
    assert m.slots[..0] == [];
  }
}

=== FILE: version_info.dfy ===
/**
 The version string checked against the database: the published version
 cut at its first '-', unless the '-' is the very first character or there
 is none.
 */
module VersionInfo {

  /** Index of the first occurrence of `c`, or -1 (`IndexOf`). */
  function IndexOf(s: string, c: char): (i: int)
    ensures -1 <= i < |s|
    ensures i >= 0 ==> s[i] == c && forall j :: 0 <= j < i ==> s[j] != c
    ensures i == -1 ==> forall j :: 0 <= j < |s| ==> s[j] != c
  {
    if s == [] then -1
    else if s[0] == c then 0
    else
      var k := IndexOf(s[1..], c);
      if k == -1 then -1 else k + 1
  }

  /** The part of the version compared with the database version. */
  function VersionCore(version: string): (r: string)
    ensures r <= version
    ensures r == version || '-' !in r
    ensures r != version ==> |r| > 0 && version[|r|] == '-'
    ensures '-' in version && version[0] != '-' ==> r != version
  {
    var pos := IndexOf(version, '-');
    if pos > 0 then version[..pos] else version
  }

  /** Cutting twice cuts no further. */
  lemma VersionCoreIdempotent(version: string)
    ensures VersionCore(VersionCore(version)) == VersionCore(version)
  {
    var r := VersionCore(version);
    if r != version {
      assert forall j :: 0 <= j < |r| ==> r[j] != '-';
      assert IndexOf(r, '-') == -1;
    }
  }

  /** The core and what was cut off make up the whole version, the cut part starting at a '-'. */
  lemma VersionCoreSplits(version: string)
    ensures var r := VersionCore(version);
            version == r + version[|r|..] && (|r| < |version| ==> version[|r|] == '-')
  {
  }
}

=== FILE: wrappers.dfy ===
/** Option, standing in for the null references of `MainForm`. */
module Wrappers {

  /** `None` is a null reference, `Some(v)` a non-null value `v`. */
  datatype Option<+T> = None | Some(value: T)
}
